=== FILE: README.md ===
# DSRC vehicle-communication simulator — Dafny model

This project models the per-tick engine of two scripts. Both drive a SUMO traffic
simulation through TraCI and log simulated DSRC (dedicated short-range
communication) traffic between vehicles and a roadside unit (RSU).

`simulate_dsrc.py` (module `SimpleDsrc`) does three things each tick:

- **RSU to vehicle (RTV).**
  - Every vehicle's distance to the RSU at (50, 0) feeds the running maximum range.
  - A vehicle within 50 m counts one packet sent and one received.
  - It gets a log line, and its last-communication time is stamped, only when the
    vehicle has no stamp yet or its stamp is more than one second old.
- **Vehicle to vehicle (VTV).**
  - Every ordered pair of distinct vehicles within 30 m counts one packet sent.
  - For each endpoint of such a pair, the tick either stamps a first
    communication time or logs a VTV line carrying the delay since that endpoint's
    stamp.
- **Summary.** The tick writes a summary line with the maximum range and the PDR
  (received / sent × 100, or 0 when nothing was sent).

`simulate_dsrc_meshed.py` (module `MeshedDsrc`) works like this:

- **Pair loop.** Every unordered pair (i < j) of vehicles within 50 m draws a delay
  in [0, 0.1].
  - If the registry has no message under the pair's key for this tick, the loop
    registers one with lifetime 5, counts one message sent and logs it.
  - Independently of that, a coin below 0.9 counts one successful delivery.
- **Update phase.**
  - Every registered message loses 1 / VEHICLE_COMM_SPEED = 1 of lifetime.
  - Messages with no positive lifetime left are deleted.
- **Final PDR.** After the loop, when something was sent, the script reports
  deliveries / sent.

Supporting modules:

- `Geometry`: positions, squared Euclidean distance and the range test.
- `Mobility`: a tick's snapshot, that is, its time, vehicle list and positions.
- `Links`: the two pair enumerations and link counting.

The engine does not depend on TraCI. A tick is a function of the previous state,
a `Snapshot`, and, for the meshed script, one random `Draw` per enumerated pair.
A run is a fold of the tick over a finite sequence of snapshots.

## Model

| member | source | states |
|---|---|---|
| Geometry.SquareComparison | simulate_dsrc.py:40-42 | For non-negative d and m, d² > m² exactly when d > m, so comparing squared distances makes the same update decision as the script's comparison of distances. |
| Geometry.InRangeSymmetric | simulate_dsrc_meshed.py:43-46 | Distance and the range test do not depend on which endpoint comes first. |
| Geometry.InRangeMatchesDistance | simulate_dsrc.py:63-65 | For any non-negative d whose square is the squared distance, the squared-distance test agrees with the script's `distance <= radius` test on the square root. |
| Links.UnorderedPairsExactlyOnce | simulate_dsrc_meshed.py:35-40 | The i < j enumeration yields every index pair with i < j < n exactly once and nothing else, n·(n-1)/2 pairs in all. |
| Links.OrderedPairsExactlyOnce | simulate_dsrc.py:57-58 | The nested loop over vehicles yields every ordered index pair exactly once, n·n in all. |
| Links.LinkedSymmetric | simulate_dsrc.py:59-65 | (i, j) is an in-range pair of distinct vehicles exactly when (j, i) is. |
| Links.OrderedLinksDoubleUnordered | simulate_dsrc.py:57-66 | The ordered pass (veh1 != veh2) finds exactly twice as many in-range pairs as the i < j enumeration does. |
| SimpleDsrc.RtvVisit | simulate_dsrc.py:36-54 | For one vehicle, the max range becomes the larger of the old maximum and the RSU distance. An in-range vehicle adds one packet sent and one received. A log line is written exactly when the vehicle is in range and has no stamp or a stamp more than one second old, and it carries the time since the stamp (0 when there was none). Only that vehicle's stamp changes, and only forward. |
| SimpleDsrc.MaxRangeTracksScript | simulate_dsrc.py:38-42 | When the stored squared maximum is m² and the vehicle's RSU distance is d, the visit stores the square of the script's new max_range: d when d > m, m otherwise. |
| SimpleDsrc.RtvPass | simulate_dsrc.py:36-54 | After the RTV loop, max range covers every vehicle's RSU distance and equals the old maximum or one of them. Sent and received grow by the same amount. Stamps only advance. Only RTV lines for listed vehicles at the current time are logged. |
| SimpleDsrc.RtvPassCounts | simulate_dsrc.py:45-46 | Over distinct vehicles, the RTV loop adds exactly the number of vehicles within RSU range to both sent and received. |
| SimpleDsrc.RtvPassStamps | simulate_dsrc.py:48-52 | After the RTV loop, an in-range vehicle is stamped with the current time when its stamp was missing or more than one second old, and otherwise keeps its stamp. Other vehicles' stamps are untouched. |
| SimpleDsrc.RtvPassLogsFresh | simulate_dsrc.py:48-51 | Every in-range vehicle that passes the freshness gate gets its RTV line. |
| SimpleDsrc.RtvPassLogsOnlyFresh | simulate_dsrc.py:48-51 | Every RTV line is for an in-range vehicle that passed the freshness gate, with the current time, the delay since its old stamp and its RSU distance. |
| SimpleDsrc.VtvVisit | simulate_dsrc.py:59-77 | For one ordered pair, sent grows by one exactly when the vehicles are distinct and within 30 m. Received and max range are unchanged. Existing stamps are never overwritten, and new stamps carry the current time and belong to an endpoint of an in-range pair. After an in-range pair both endpoints are stamped. A line from an endpoint is logged exactly when that endpoint already had a stamp, and it carries the delay since that stamp. |
| SimpleDsrc.VtvPass | simulate_dsrc.py:57-77 | Over a pair list, sent grows by the number of in-range pairs, received and max range are unchanged, stamps are only added, every new stamp carries the current time and belongs to an endpoint of an in-range pair of the list, and both endpoints of every in-range pair end up stamped. Every line is a VTV line at the current time carrying the delay since its source's stamp, and it belongs to an in-range pair of the list: its source and target are that pair's endpoints and its range is their distance. |
| SimpleDsrc.VtvPassLogsStamped | simulate_dsrc.py:57-77 | Over a pair list, for every in-range pair of distinct vehicles, each endpoint that already had a stamp at the start of the loop writes its VTV line to the other, carrying the time since that stamp and the pair's distance. With `VtvPass` this gives both directions: lines are written exactly for stamped endpoints of in-range pairs. |
| SimpleDsrc.StepLogsStamped | simulate_dsrc.py:57-77 | In one tick, every in-range pair of distinct vehicles gets the VTV line of each endpoint that has a stamp after the RSU loop, with the time since that stamp and the pair's distance. |
| SimpleDsrc.Pdr | simulate_dsrc.py:84 | The PDR is 0 when nothing was sent and otherwise satisfies pdr·sent = 100·received. While received ≤ sent it lies in [0, 100] and is 0 exactly when nothing was received. |
| SimpleDsrc.Step | simulate_dsrc.py:30-87 | One tick never lowers max range, covers every vehicle's RSU distance, only advances stamps and keeps received ≤ sent. It ends with exactly one summary line, carrying the tick's max range and PDR. |
| SimpleDsrc.StepStamps | simulate_dsrc.py:45-74 | A vehicle with a stamp keeps it unless it is within RSU range and passes the freshness gate, and then it moves to the current time. A vehicle without one gets the current time only when it is within RSU range or an endpoint of an in-range VTV pair, and stays unstamped otherwise. |
| SimpleDsrc.StepCounts | simulate_dsrc.py:45-66 | A tick adds to sent the vehicles within RSU range plus twice the in-range unordered vehicle pairs, and adds to received the vehicles within RSU range only. |
| SimpleDsrc.Run | simulate_dsrc.py:28-87 | Over a trace, max range never goes down, stamps only advance, received ≤ sent is kept, and every summary line reports a PDR in [0, 100]. |
| SimpleDsrc.RunFromInit | simulate_dsrc.py:21-87 | Starting from zero counters, max range 0 and no stamps, a run keeps received ≤ sent, and every summary line reports a PDR in [0, 100]. |
| MeshedDsrc.CreateVisit | simulate_dsrc_meshed.py:46-73 | An in-range pair whose key is not yet registered registers exactly one fresh message under that key, adds one sent and one log line with the drawn delay. Otherwise the registry, sent and the log are unchanged. Delivered grows by one exactly when the pair is in range and the coin is below 0.9. |
| MeshedDsrc.CreatePass | simulate_dsrc_meshed.py:35-73 | Over the pair loop, deliveries grow by the number of in-range pairs whose coin is below 0.9. |
| MeshedDsrc.CreatePassKeeps | simulate_dsrc_meshed.py:53 | The pair loop never removes or changes a registered message. |
| MeshedDsrc.CreatePassNewEntries | simulate_dsrc_meshed.py:46-60 | Every entry the pair loop adds is the message of an in-range pair of the loop, from veh1 to veh2 at their distance. It carries the current time, the full lifetime of 5, and the key of its own source, target and time. |
| MeshedDsrc.CreatePassSent | simulate_dsrc_meshed.py:53-65 | Messages sent grows by exactly the number of keys the pair loop adds to the registry, and there is one log line per message sent. |
| MeshedDsrc.CreatePassDelays | simulate_dsrc_meshed.py:48 | Every logged delay lies in [0, MESSAGE_DELAY]. |
| MeshedDsrc.ExpireMessages | simulate_dsrc_meshed.py:76-85 | After the update phase, a message is kept exactly when its lifetime less one step is still positive. A kept message has that lowered lifetime and is otherwise unchanged. |
| MeshedDsrc.LowerLifetimes | simulate_dsrc_meshed.py:76-81 | The decay loop lowers every lifetime by one step and collects exactly the keys whose lowered lifetime is ≤ 0. |
| MeshedDsrc.DropExpired | simulate_dsrc_meshed.py:84-85 | Deleting the collected keys leaves every other key with its value. |
| MeshedDsrc.StepWith | simulate_dsrc_meshed.py:29-85 | In one tick, each old message is aged by one step and kept exactly when lifetime remains. Each new message is the message of an in-range pair, from veh1 to veh2 at their distance, aged one step. It carries the tick's time, lifetime 5 - 1 and its endpoints' key. Every message left has positive lifetime. Sent never decreases, and delivered grows by the in-range pairs whose coin is below 0.9. |
| MeshedDsrc.FinalPdr | simulate_dsrc_meshed.py:91-93 | A PDR is reported exactly when something was sent. It then satisfies pdr·sent = delivered and lies in [0, 1] while delivered ≤ sent. |
| MeshedDsrc.DeliveredAtMostLinks | simulate_dsrc_meshed.py:46-73 | Deliveries counted in a pass never exceed the in-range pairs of that pass. |
| MeshedDsrc.FreshKeysCreateOnePerLink | simulate_dsrc_meshed.py:52-65 | When no pair's (veh1, veh2, time) key is registered yet, the pair loop sends exactly one message per in-range pair. |
| MeshedDsrc.StepKeepsDeliveriesBounded | simulate_dsrc_meshed.py:29-73 | A tick later than every registered key adds one message sent per in-range pair and keeps delivered ≤ sent. |
| MeshedDsrc.RunWith | simulate_dsrc_meshed.py:27-85 | Over a trace, under any registry key (the script's string key or the tuple key), both counters never go down, and a registry with only positive lifetimes keeps that property. |
| MeshedDsrc.KeysCarryTime | simulate_dsrc_meshed.py:52 | Both the script's string key and the tuple key record the tick time they were built at. |
| MeshedDsrc.RunKeepsDeliveriesBounded | simulate_dsrc_meshed.py:91-93 | Over a trace with increasing tick times, delivered ≤ sent holds at the end, so any reported PDR lies in [0, 1]. |
| MeshedDsrc.AbsentStaysAbsent | simulate_dsrc_meshed.py:53-54 | Under any key that records the tick time, a key that is not registered stays unregistered while no tick reuses its time. Expired messages are never revived. |
| MeshedDsrc.AgesOneStepPerTick | simulate_dsrc_meshed.py:76-85 | Under any key that records the tick time, after n ticks a registered message has lost exactly n steps of lifetime and is present exactly when that leaves a positive amount. Its other fields never change. |
| MeshedDsrc.CreatedMessageLifespan | simulate_dsrc_meshed.py:76-85 | Under any key that records the tick time, a message created in a tick with MESSAGE_LIFETIME 5 is still registered after the next three ticks and gone after the fourth. |
| MeshedDsrc.SharedKeyStepOvercounts | simulate_dsrc_meshed.py:52-73 | For any keying, three mutually in-range vehicles with sure deliveries give sent 2 and delivered 3 when pairs (0,1) and (1,2) share a key and (0,2) does not. |
| MeshedDsrc.DistinctKeysStepCounts | simulate_dsrc_meshed.py:52-73 | The same tick with three distinct keys gives sent 3 and delivered 3. |
| MeshedDsrc.AsWrittenKeysCollide | simulate_dsrc_meshed.py:52 | The string key gives pairs ("a_b", "a") and ("a", "b_a") the same key at any time, while ("a_b", "b_a") gets a different key. |
| MeshedDsrc.AsWrittenKeyOvercountsDeliveries | simulate_dsrc_meshed.py:52-73 | Under the string key, vehicles "a_b", "a", "b_a" in range with every coin below 0.9 give sent 2, delivered 3 and a final PDR of 1.5. |
| MeshedDsrc.TupleKeyCountsEveryPair | simulate_dsrc_meshed.py:52-73 | Under the (veh1, veh2, time) key, the same kind of tick gives sent 3, delivered 3 and a final PDR of 1. |

## Left out

- Calls into TraCI and SUMO are not modelled: start, close, simulationStep, getTime,
  getIDList, getPosition and setColor. Each tick's vehicle list, positions and time
  arrive as a `Snapshot`.
- The `getMinExpectedNumber() > 0` loop condition is not modelled. A run is a fold
  over a finite sequence of snapshots.
- `time.sleep` is not modelled. It only slows the real-time run.
- The `random` module is not modelled. Each enumerated pair comes with one `Draw`,
  made of a delay and a coin. Only its range is assumed: delay in [0, 0.1] and
  coin in [0, 1). Its distribution is not modelled.
- Floating-point arithmetic and `math.sqrt` are not modelled. Positions and
  times are exact reals, and ranges are compared and stored as squared distances.
  `Geometry.InRangeMatchesDistance` ties the squared test to the script's test
  on the root.
- Log-line text formatting (`:.2f` rounding, tabs, headers) and file handling are
  not modelled. Log lines are modelled as structured events.
- The exception handler and `print` are not modelled.
- VEHICLE_COMM_SPEED at simulate_dsrc.py:9 is not modelled, because that script
  never reads it. The meshed script's VEHICLE_COMM_SPEED is modelled as the decay
  step 1 / VEHICLE_COMM_SPEED.
- MeshedDsrc.RunWith: states only that the counters are monotone and that lifetimes
  stay positive. The bound delivered ≤ sent holds only for the tuple key and is
  stated by `RunKeepsDeliveriesBounded`, because it also needs tick times to increase.
- MeshedDsrc.Run: is the run with the corrected tuple key. The script's own run,
  `RunWith` with `AsWrittenKey`, has monotone counters, positive lifetimes and
  message aging stated, but no bound on delivered, since that bound fails for it
  (see Findings).

## Notes on the scripts' behaviour

- simulate_dsrc.py:87 writes the summary line on every tick, inside the loop.
- simulate_dsrc.py:53 counts a packet received for every in-range vehicle,
  whether or not the freshness gate lets a log line through.
- `random.uniform(0, 0.1)` at simulate_dsrc_meshed.py:48 may return either
  endpoint, so delays are in the closed interval [0, 0.1].
- The meshed registry is keyed by the string built at simulate_dsrc_meshed.py:52,
  so it does not guarantee one message per pair per tick (see Findings).

## Findings

| source | as written | input that shows it | evidently intended | confidence | as-written member | corrected member |
|---|---|---|---|---|---|---|
| simulate_dsrc_meshed.py:52 | The registry key is the string f"{veh1}_{veh2}_{current_time}". Vehicle ids may contain '_', so two different pairs can share a key in the same tick. The second pair then sends no message but still counts a delivery. | Vehicles "a_b", "a", "b_a" at the same position, with every coin below 0.9. Pairs ("a_b","a") and ("a","b_a") both produce "a_b_a_t", so the tick ends with sent 2, delivered 3 and a PDR of 150%. | One message per in-range pair per tick, keyed by the tuple (veh1, veh2, current_time), so that delivered ≤ sent and the PDR stays at or below 100%. | not executed; medium (SUMO accepts '_' in vehicle ids, but a collision also needs the ids to line up as shown) | MeshedDsrc.AsWrittenKeyOvercountsDeliveries | MeshedDsrc.RunKeepsDeliveriesBounded |

=== FILE: geometry.dfy ===
/**
 Plane geometry shared by the roadside-unit and vehicle-to-vehicle range tests.

 Both scripts compute `sqrt(dx*dx + dy*dy)` and compare it against a radius.
 The model keeps the squared distance and compares it against the squared
 radius; `InRangeMatchesDistance` shows the two tests agree.
 */
module Geometry {

  /** A position in the plane, in metres. */
  datatype Pos = Pos(x: real, y: real)

  /** Squared Euclidean distance between two positions. */
  function SqDist(a: Pos, b: Pos): real
  {
    (a.x - b.x) * (a.x - b.x) + (a.y - b.y) * (a.y - b.y)
  }

  /** The link test `distance <= radius`, boundary included. */
  predicate InRange(a: Pos, b: Pos, radius: real)
  {
    SqDist(a, b) <= radius * radius
  }

  /**
   For non-negative reals, comparing squares is comparing the values: a
   running maximum of squared distances is the square of the running maximum
   of distances.
   */
  lemma SquareComparison(d: real, m: real)
    requires d >= 0.0 && m >= 0.0
    ensures d * d > m * m <==> d > m
  {
    var dd, dm, mm := d * d, d * m, m * m;
    if d > m {
      assert dd > dm >= mm;
    } else {
      assert dd <= dm <= mm;
    }
  }

  /** The range test does not depend on which end of the link is named first. */
  lemma InRangeSymmetric(a: Pos, b: Pos, radius: real)
    ensures SqDist(a, b) == SqDist(b, a)
    ensures InRange(a, b, radius) <==> InRange(b, a, radius)
  {
    assert (a.x - b.x) * (a.x - b.x) == (b.x - a.x) * (b.x - a.x);
    assert (a.y - b.y) * (a.y - b.y) == (b.y - a.y) * (b.y - a.y);
  }

  /**
   For a non-negative radius, the squared test holds exactly when the true
   distance `d` (the non-negative square root of the squared distance) is at
   most the radius; in particular a vehicle exactly on the boundary is in range.
   */
  lemma InRangeMatchesDistance(a: Pos, b: Pos, radius: real, d: real)
    requires radius >= 0.0 && d >= 0.0 && d * d == SqDist(a, b)
    ensures InRange(a, b, radius) <==> d <= radius
  {
    var sq, rr, rd, dd := SqDist(a, b), radius * radius, radius * d, d * d;
    if d <= radius {
      assert dd <= rd <= rr;
    } else {
      assert rr <= rd < dd;
      assert dd == sq;
    }
  }
}

=== FILE: links.dfy ===
/**
 Link detection: the order in which the two scripts visit pairs of vehicle
 list positions, and how many of the visited pairs are links.

 The simple script runs `for veh1 in vehicles: for veh2 in vehicles:` and
 skips `veh1 == veh2`, so it visits every ordered pair of positions. The
 meshed script enumerates both loops and skips `i >= j`, so it visits every
 unordered pair once. Both orders are built here row by row, exactly as the
 loops run.
 */
module Links {
  import opened Geometry
  import opened Mobility

  /** A pair of positions in the vehicle list: (index of veh1, index of veh2). */
  type Pair = (nat, nat)

  /** One pass of an inner loop: (i, lo), (i, lo + 1), ..., (i, hi - 1). */
  function Row(i: nat, lo: nat, hi: nat): seq<Pair>
    decreases hi - lo
  {
    if lo >= hi then [] else [(i, lo)] + Row(i, lo + 1, hi)
  }

  /** (lo, j), (lo + 1, j), ..., (hi - 1, j). */
  function Column(lo: nat, hi: nat, j: nat): seq<Pair>
    decreases hi - lo
  {
    if lo >= hi then [] else [(lo, j)] + Column(lo + 1, hi, j)
  }

  /** Rows i, ..., n - 1 of the full n-by-n grid. */
  function GridFrom(i: nat, n: nat): seq<Pair>
    decreases n - i
  {
    if i >= n then [] else Row(i, 0, n) + GridFrom(i + 1, n)
  }

  /** Rows i, ..., n - 1 restricted to the entries right of the diagonal. */
  function UpperFrom(i: nat, n: nat): seq<Pair>
    decreases n - i
  {
    if i >= n then [] else Row(i, i + 1, n) + UpperFrom(i + 1, n)
  }

  /** Rows i, ..., n - 1 restricted to the entries left of the diagonal. */
  function LowerFrom(i: nat, n: nat): seq<Pair>
    decreases n - i
  {
    if i >= n then [] else Row(i, 0, i) + LowerFrom(i + 1, n)
  }

  /** The pairs the simple script's nested loop visits, in visiting order. */
  function OrderedPairs(n: nat): seq<Pair>
  {
    GridFrom(0, n)
  }

  /** The pairs the meshed script's nested loop does not skip, in visiting order. */
  function UnorderedPairs(n: nat): seq<Pair>
  {
    UpperFrom(0, n)
  }

  lemma DistinctConcat<T>(a: seq<T>, b: seq<T>)
    requires Distinct(a) && Distinct(b)
    requires forall x :: x in a ==> x !in b
    ensures Distinct(a + b)
  {
    forall i, j | 0 <= i < j < |a + b|
      ensures (a + b)[i] != (a + b)[j]
    {
      if j < |a| {
        assert (a + b)[i] == a[i] && (a + b)[j] == a[j];
      } else if i >= |a| {
        assert (a + b)[i] == b[i - |a|] && (a + b)[j] == b[j - |a|];
      } else {
        assert (a + b)[i] == a[i] && (a + b)[j] == b[j - |a|];
        assert a[i] in a && b[j - |a|] in b;
      }
    }
  }

  lemma {:induction false} RowMembers(i: nat, lo: nat, hi: nat)
    ensures forall p :: p in Row(i, lo, hi) <==> p.0 == i && lo <= p.1 < hi
    ensures Distinct(Row(i, lo, hi))
    decreases hi - lo
  {
    if lo < hi {
      RowMembers(i, lo + 1, hi);
      DistinctConcat([(i, lo)], Row(i, lo + 1, hi));
    }
  }

  lemma {:induction false} RowLength(i: nat, lo: nat, hi: nat)
    ensures |Row(i, lo, hi)| == if lo <= hi then hi - lo else 0
    decreases hi - lo
  {
    if lo < hi {
      RowLength(i, lo + 1, hi);
    }
  }

  lemma {:induction false} UpperMembers(i: nat, n: nat)
    requires i <= n
    ensures forall p :: p in UpperFrom(i, n) <==> i <= p.0 < p.1 < n
    ensures Distinct(UpperFrom(i, n))
    decreases n - i
  {
    if i < n {
      RowMembers(i, i + 1, n);
      UpperMembers(i + 1, n);
      DistinctConcat(Row(i, i + 1, n), UpperFrom(i + 1, n));
    }
  }

  lemma {:induction false} UpperLength(i: nat, n: nat)
    requires i <= n
    ensures 2 * |UpperFrom(i, n)| == (n - i) * (n - i - 1)
    decreases n - i
  {
    if i < n {
      RowLength(i, i + 1, n);
      UpperLength(i + 1, n);
      var k := n - i - 1;
      assert 2 * k + k * (k - 1) == (k + 1) * k;
    }
  }

  lemma {:induction false} GridMembers(i: nat, n: nat)
    requires i <= n
    ensures forall p :: p in GridFrom(i, n) <==> i <= p.0 < n && p.1 < n
    ensures Distinct(GridFrom(i, n))
    decreases n - i
  {
    if i < n {
      RowMembers(i, 0, n);
      GridMembers(i + 1, n);
      DistinctConcat(Row(i, 0, n), GridFrom(i + 1, n));
    }
  }

  lemma {:induction false} GridLength(i: nat, n: nat)
    requires i <= n
    ensures |GridFrom(i, n)| == (n - i) * n
    decreases n - i
  {
    if i < n {
      RowLength(i, 0, n);
      GridLength(i + 1, n);
      var k := n - i;
      assert k * n == n + (k - 1) * n;
    }
  }

  /**
   The meshed enumeration visits each pair of distinct list positions
   i < j exactly once, and never a position paired with itself.
   */
  lemma UnorderedPairsExactlyOnce(n: nat)
    ensures forall i: nat, j: nat :: (i, j) in UnorderedPairs(n) <==> i < j < n
    ensures forall p :: p in UnorderedPairs(n) ==> p.0 < p.1 < n
    ensures Distinct(UnorderedPairs(n))
    ensures 2 * |UnorderedPairs(n)| == n * (n - 1)
  {
    UpperMembers(0, n);
    UpperLength(0, n);
  }

  /** The simple enumeration visits each ordered pair of list positions exactly once. */
  lemma OrderedPairsExactlyOnce(n: nat)
    ensures forall i: nat, j: nat :: (i, j) in OrderedPairs(n) <==> i < n && j < n
    ensures forall p :: p in OrderedPairs(n) ==> p.0 < n && p.1 < n
    ensures Distinct(OrderedPairs(n))
    ensures |OrderedPairs(n)| == n * n
  {
    GridMembers(0, n);
    GridLength(0, n);
  }

  /** Positions `p.0` and `p.1` hold two different vehicles at most `radius` apart. */
  predicate Linked(s: Snapshot, radius: real, p: Pair)
    requires WellFormed(s)
  {
    && p.0 < |s.vehicles|
    && p.1 < |s.vehicles|
    && s.vehicles[p.0] != s.vehicles[p.1]
    && InRange(PosAt(s, p.0), PosAt(s, p.1), radius)
  }

  /** The number of entries of `ps` that are links. */
  function CountLinked(s: Snapshot, radius: real, ps: seq<Pair>): nat
    requires WellFormed(s)
  {
    if ps == [] then 0
    else (if Linked(s, radius, ps[0]) then 1 else 0) + CountLinked(s, radius, ps[1..])
  }

  lemma {:induction false} CountLinkedConcat(s: Snapshot, radius: real, a: seq<Pair>, b: seq<Pair>)
    requires WellFormed(s)
    ensures CountLinked(s, radius, a + b) == CountLinked(s, radius, a) + CountLinked(s, radius, b)
  {
    if a == [] {
      assert a + b == b;
    } else {
      assert (a + b)[0] == a[0];
      assert (a + b)[1..] == a[1..] + b;
      CountLinkedConcat(s, radius, a[1..], b);
    }
  }

  /** Being a link does not depend on the order of the two positions. */
  lemma LinkedSymmetric(s: Snapshot, radius: real, i: nat, j: nat)
    requires WellFormed(s)
    ensures Linked(s, radius, (i, j)) <==> Linked(s, radius, (j, i))
  {
    if i < |s.vehicles| && j < |s.vehicles| {
      InRangeSymmetric(PosAt(s, i), PosAt(s, j), radius);
    }
  }

  lemma {:induction false} RowSplit(i: nat, lo: nat, mid: nat, hi: nat)
    requires lo <= mid <= hi
    ensures Row(i, lo, hi) == Row(i, lo, mid) + Row(i, mid, hi)
    decreases mid - lo
  {
    if lo < mid {
      RowSplit(i, lo + 1, mid, hi);
    }
  }

  lemma {:induction false} RowCountIsColumnCount(s: Snapshot, radius: real, n: nat, lo: nat, hi: nat)
    requires WellFormed(s)
    ensures CountLinked(s, radius, Row(n, lo, hi)) == CountLinked(s, radius, Column(lo, hi, n))
    decreases hi - lo
  {
    if lo < hi {
      LinkedSymmetric(s, radius, n, lo);
      RowCountIsColumnCount(s, radius, n, lo + 1, hi);
    }
  }

  lemma {:induction false} LowerExtend(i: nat, n: nat)
    requires i <= n
    ensures LowerFrom(i, n + 1) == LowerFrom(i, n) + Row(n, 0, n)
    decreases n - i
  {
    if i < n {
      LowerExtend(i + 1, n);
    }
  }

  lemma {:induction false} UpperExtend(s: Snapshot, radius: real, i: nat, n: nat)
    requires WellFormed(s) && i <= n
    ensures CountLinked(s, radius, UpperFrom(i, n + 1))
         == CountLinked(s, radius, UpperFrom(i, n)) + CountLinked(s, radius, Column(i, n, n))
    decreases n - i
  {
    if i < n {
      var r, r1 := Row(i, i + 1, n), Row(i, i + 1, n + 1);
      var u, u1 := UpperFrom(i + 1, n), UpperFrom(i + 1, n + 1);
      var col, col1 := Column(i, n, n), Column(i + 1, n, n);
      RowSplit(i, i + 1, n, n + 1);
      assert Row(i, n, n + 1) == [(i, n)];
      assert r1 == r + [(i, n)];
      assert UpperFrom(i, n + 1) == r1 + u1;
      assert UpperFrom(i, n) == r + u;
      assert col == [(i, n)] + col1;
      UpperExtend(s, radius, i + 1, n);
      CountLinkedConcat(s, radius, r1, u1);
      CountLinkedConcat(s, radius, r, [(i, n)]);
      CountLinkedConcat(s, radius, r, u);
      CountLinkedConcat(s, radius, [(i, n)], col1);
    }
  }

  lemma {:induction false} GridSplit(s: Snapshot, radius: real, i: nat, n: nat)
    requires WellFormed(s)
    ensures CountLinked(s, radius, GridFrom(i, n))
         == CountLinked(s, radius, LowerFrom(i, n)) + CountLinked(s, radius, UpperFrom(i, n))
    decreases n - i
  {
    if i < n {
      GridSplit(s, radius, i + 1, n);
      RowSplit(i, 0, i, n);
      assert Row(i, i, n) == [(i, i)] + Row(i, i + 1, n);
      assert !Linked(s, radius, (i, i));
      CountLinkedConcat(s, radius, Row(i, 0, i), Row(i, i, n));
      CountLinkedConcat(s, radius, Row(i, 0, n), GridFrom(i + 1, n));
      CountLinkedConcat(s, radius, Row(i, 0, i), LowerFrom(i + 1, n));
      CountLinkedConcat(s, radius, Row(i, i + 1, n), UpperFrom(i + 1, n));
    }
  }

  lemma {:induction false} LowerCountIsUpperCount(s: Snapshot, radius: real, n: nat)
    requires WellFormed(s)
    ensures CountLinked(s, radius, LowerFrom(0, n)) == CountLinked(s, radius, UpperFrom(0, n))
  {
    if n > 0 {
      var m := n - 1;
      LowerCountIsUpperCount(s, radius, m);
      LowerExtend(0, m);
      CountLinkedConcat(s, radius, LowerFrom(0, m), Row(m, 0, m));
      UpperExtend(s, radius, 0, m);
      RowCountIsColumnCount(s, radius, m, 0, m);
    }
  }

  /**
   Visiting every ordered pair of positions meets each link twice, once from
   each end: the ordered pass finds exactly twice as many links as the
   unordered pass.
   */
  lemma OrderedLinksDoubleUnordered(s: Snapshot, radius: real, n: nat)
    requires WellFormed(s)
    ensures CountLinked(s, radius, OrderedPairs(n)) == 2 * CountLinked(s, radius, UnorderedPairs(n))
  {
    GridSplit(s, radius, 0, n);
    LowerCountIsUpperCount(s, radius, n);
  }
}

=== FILE: meshed_dsrc.dfy ===
/**
 The meshed DSRC script (simulate_dsrc_meshed.py): each tick every unordered
 pair of vehicles within range creates a message in a registry unless its key
 is already there, a random draw decides whether the pair counts a successful
 delivery, and every registered message then loses one unit of lifetime and
 is dropped once its lifetime is no longer positive. After the run the packet
 delivery ratio is deliveries over messages sent.

 The random draws of the script are inputs here (`Draw`), one per enumerated
 pair. The registry key is a parameter of the tick (`StepWith`) and of the
 run (`RunWith`): the script builds the string key `AsWrittenKey`, which can
 merge two pairs; `Step` and `Run` are the corrected tick and run, keyed by
 the tuple (veh1, veh2, current_time) (`TupleKey`).
 */
module MeshedDsrc {
  import opened Geometry
  import opened Mobility
  import opened Links

  /** Vehicle-to-vehicle communication range, in metres. */
  const VehicleCommRadius: real := 50.0
  /** Messages per second; sets the lifetime lost per tick. */
  const VehicleCommSpeed: real := 1.0
  /** Lifetime of a new message, in seconds. */
  const MessageLifetime: real := 5.0
  /** Upper bound of the sampled transmission delay, in seconds. */
  const MessageDelay: real := 0.1
  /** A pair counts a successful delivery when its coin falls below this. */
  const DeliveryProbability: real := 0.9
  /** Lifetime every registered message loses in each tick's update phase. */
  const LifetimeStep: real := 1.0 / VehicleCommSpeed

  /** At one message per second a tick costs one second of lifetime. */
  lemma OneSecondPerTick()
    ensures LifetimeStep == 1.0
  {
  }

  datatype Option<T> = None | Some(value: T)

  /** A registered message; `rangeSq` is the squared distance at creation. */
  datatype Message = Message(source: VehId, target: VehId, time: real, rangeSq: real, lifetime: real)

  /** The registry key the script means: (veh1, veh2, current_time). */
  datatype MsgKey = MsgKey(source: VehId, target: VehId, time: real)

  function TupleKey(v1: VehId, v2: VehId, t: real): MsgKey
  {
    MsgKey(v1, v2, t)
  }

  /**
   The random values drawn for one in-range pair: the transmission delay
   (`random.uniform(0, MESSAGE_DELAY)`) and the delivery coin (`random.random()`).
   */
  datatype Draw = Draw(delay: real, coin: real)

  predicate ValidDraw(d: Draw)
  {
    0.0 <= d.delay <= MessageDelay && 0.0 <= d.coin < 1.0
  }

  predicate Delivered(d: Draw)
  {
    d.coin < DeliveryProbability
  }

  /** The log line written when a message is created. */
  datatype Event = Created(time: real, source: VehId, target: VehId, rangeSq: real, lifetime: real, delay: real)

  /** Registry and counters, for a registry keyed by `K`. */
  datatype State<K(==)> = State(messages: map<K, Message>, sent: nat, delivered: nat)

  datatype Outcome<K(==)> = Outcome(state: State<K>, events: seq<Event>)

  /** The state before the first tick. */
  function Empty<K(==)>(): State<K>
  {
    State(map[], 0, 0)
  }

  /** The pair at positions `p` is within vehicle range (the script's only test). */
  predicate PairInRange(s: Snapshot, p: Pair)
    requires WellFormed(s) && p.0 < |s.vehicles| && p.1 < |s.vehicles|
  {
    InRange(PosAt(s, p.0), PosAt(s, p.1), VehicleCommRadius)
  }

  /** The message an in-range pair registers: veh1 to veh2, now, at their distance, full lifetime. */
  function NewMessage(s: Snapshot, p: Pair): Message
    requires WellFormed(s) && p.0 < |s.vehicles| && p.1 < |s.vehicles|
  {
    Message(s.vehicles[p.0], s.vehicles[p.1], s.time, SqDist(PosAt(s, p.0), PosAt(s, p.1)), MessageLifetime)
  }

  /** `msg` is the message some in-range pair of `ps` registers in this tick. */
  predicate MessageOfLink(s: Snapshot, ps: seq<Pair>, msg: Message)
    requires WellFormed(s)
  {
    exists p :: p in ps && p.0 < |s.vehicles| && p.1 < |s.vehicles| && PairInRange(s, p) && msg == NewMessage(s, p)
  }

  /** The pair at `p` is in range and its key is not registered yet. */
  predicate Creates<K(==)>(st: State<K>, keyOf: (VehId, VehId, real) -> K, s: Snapshot, p: Pair)
    requires WellFormed(s) && p.0 < |s.vehicles| && p.1 < |s.vehicles|
  {
    PairInRange(s, p) && keyOf(s.vehicles[p.0], s.vehicles[p.1], s.time) !in st.messages
  }

  /**
   One iteration of the pair loop. An in-range pair whose key is already
   registered leaves registry, counter and log alone; otherwise it registers
   exactly one message (`NewMessage`) under its key, counts one message sent
   and logs it with the drawn delay. Independently of that, an in-range pair
   whose coin falls below 0.9 counts one delivery.
   */
  function CreateVisit<K(==)>(st: State<K>, keyOf: (VehId, VehId, real) -> K, s: Snapshot, p: Pair, d: Draw): (o: Outcome<K>)
    requires WellFormed(s) && p.0 < |s.vehicles| && p.1 < |s.vehicles|
    ensures o.state.delivered == st.delivered + (if PairInRange(s, p) && Delivered(d) then 1 else 0)
    ensures !Creates(st, keyOf, s, p) ==>
              o.state.messages == st.messages && o.state.sent == st.sent && o.events == []
    ensures Creates(st, keyOf, s, p) ==>
              && o.state.messages == st.messages[keyOf(s.vehicles[p.0], s.vehicles[p.1], s.time) := NewMessage(s, p)]
              && o.state.sent == st.sent + 1
              && o.events == [Created(s.time, s.vehicles[p.0], s.vehicles[p.1],
                                      NewMessage(s, p).rangeSq, MessageLifetime, d.delay)]
  {
    if PairInRange(s, p) then
      var k := keyOf(s.vehicles[p.0], s.vehicles[p.1], s.time);
      var created := if k in st.messages then st
        else st.(messages := st.messages[k := NewMessage(s, p)], sent := st.sent + 1);
      var events := if k in st.messages then []
        else [Created(s.time, s.vehicles[p.0], s.vehicles[p.1], NewMessage(s, p).rangeSq, MessageLifetime, d.delay)];
      Outcome(created.(delivered := created.delivered + (if Delivered(d) then 1 else 0)), events)
    else
      Outcome(st, [])
  }

  /** The number of pairs of `ps` in range whose coin counts a delivery. */
  function DeliveredCount(s: Snapshot, ps: seq<Pair>, ds: seq<Draw>): nat
    requires WellFormed(s) && |ds| == |ps|
  {
    if ps == [] then 0
    else
      var p := ps[0];
      (if p.0 < |s.vehicles| && p.1 < |s.vehicles| && PairInRange(s, p) && Delivered(ds[0]) then 1 else 0)
      + DeliveredCount(s, ps[1..], ds[1..])
  }

  /** The pair loop over `ps`, with draw `ds[i]` for pair `ps[i]`. */
  function CreatePass<K(==)>(st: State<K>, keyOf: (VehId, VehId, real) -> K, s: Snapshot, ps: seq<Pair>, ds: seq<Draw>): (o: Outcome<K>)
    requires WellFormed(s) && |ds| == |ps|
    requires forall p :: p in ps ==> p.0 < |s.vehicles| && p.1 < |s.vehicles|
    ensures o.state.delivered == st.delivered + DeliveredCount(s, ps, ds)
    decreases |ps|
  {
    if ps == [] then Outcome(st, [])
    else
      assert ps[0] in ps;
      assert forall p :: p in ps[1..] ==> p in ps;
      var a := CreateVisit(st, keyOf, s, ps[0], ds[0]);
      var b := CreatePass(a.state, keyOf, s, ps[1..], ds[1..]);
      Outcome(b.state, a.events + b.events)
  }

  /** Registered messages survive the pair loop unchanged: creation never overwrites. */
  lemma {:induction false} CreatePassKeeps<K>(st: State<K>, keyOf: (VehId, VehId, real) -> K, s: Snapshot, ps: seq<Pair>, ds: seq<Draw>)
    requires WellFormed(s) && |ds| == |ps|
    requires forall p :: p in ps ==> p.0 < |s.vehicles| && p.1 < |s.vehicles|
    ensures var m := CreatePass(st, keyOf, s, ps, ds).state.messages;
      forall k :: k in st.messages ==> k in m && m[k] == st.messages[k]
    decreases |ps|
  {
    if ps != [] {
      assert ps[0] in ps;
      assert forall p :: p in ps[1..] ==> p in ps;
      var a := CreateVisit(st, keyOf, s, ps[0], ds[0]);
      CreatePassKeeps(a.state, keyOf, s, ps[1..], ds[1..]);
      var m := CreatePass(st, keyOf, s, ps, ds).state.messages;
      assert m == CreatePass(a.state, keyOf, s, ps[1..], ds[1..]).state.messages;
      assert forall k :: k in st.messages ==> k in a.state.messages && a.state.messages[k] == st.messages[k];
    }
  }

  /**
   Each entry the pair loop adds is the message of an in-range pair of the
   loop (veh1 to veh2 at their distance), stamped with the current time,
   carrying the full lifetime and sitting under the key of its own endpoints.
   */
  lemma {:induction false} CreatePassNewEntries<K>(st: State<K>, keyOf: (VehId, VehId, real) -> K, s: Snapshot, ps: seq<Pair>, ds: seq<Draw>)
    requires WellFormed(s) && |ds| == |ps|
    requires forall p :: p in ps ==> p.0 < |s.vehicles| && p.1 < |s.vehicles|
    ensures var m := CreatePass(st, keyOf, s, ps, ds).state.messages;
      forall k :: k in m && k !in st.messages ==>
        && m[k].time == s.time
        && m[k].lifetime == MessageLifetime
        && k == keyOf(m[k].source, m[k].target, s.time)
        && MessageOfLink(s, ps, m[k])
    decreases |ps|
  {
    if ps != [] {
      assert ps[0] in ps;
      assert forall p :: p in ps[1..] ==> p in ps;
      var a := CreateVisit(st, keyOf, s, ps[0], ds[0]);
      CreatePassNewEntries(a.state, keyOf, s, ps[1..], ds[1..]);
      assert forall msg :: MessageOfLink(s, ps[1..], msg) ==> MessageOfLink(s, ps, msg);
      CreatePassKeeps(a.state, keyOf, s, ps[1..], ds[1..]);
      assert CreatePass(st, keyOf, s, ps, ds).state == CreatePass(a.state, keyOf, s, ps[1..], ds[1..]).state;
    }
  }

  /**
   Messages sent grows by exactly the number of entries the pair loop adds,
   with one log line each.
   */
  lemma {:induction false} CreatePassSent<K>(st: State<K>, keyOf: (VehId, VehId, real) -> K, s: Snapshot, ps: seq<Pair>, ds: seq<Draw>)
    requires WellFormed(s) && |ds| == |ps|
    requires forall p :: p in ps ==> p.0 < |s.vehicles| && p.1 < |s.vehicles|
    ensures var o := CreatePass(st, keyOf, s, ps, ds);
      && o.state.sent == st.sent + |o.state.messages.Keys - st.messages.Keys|
      && |o.events| == o.state.sent - st.sent
    decreases |ps|
  {
    if ps != [] {
      assert ps[0] in ps;
      assert forall p :: p in ps[1..] ==> p in ps;
      var a := CreateVisit(st, keyOf, s, ps[0], ds[0]);
      CreatePassSent(a.state, keyOf, s, ps[1..], ds[1..]);
      CreatePassKeeps(a.state, keyOf, s, ps[1..], ds[1..]);
      CreateVisitSent(st, keyOf, s, ps[0], ds[0]);
      var b := CreatePass(a.state, keyOf, s, ps[1..], ds[1..]);
      assert CreatePass(st, keyOf, s, ps, ds) == Outcome(b.state, a.events + b.events);
      KeySetsAdd(st.messages.Keys, a.state.messages.Keys, b.state.messages.Keys);
    }
  }

  lemma CreateVisitSent<K>(st: State<K>, keyOf: (VehId, VehId, real) -> K, s: Snapshot, p: Pair, d: Draw)
    requires WellFormed(s) && p.0 < |s.vehicles| && p.1 < |s.vehicles|
    ensures var a := CreateVisit(st, keyOf, s, p, d);
      && st.messages.Keys <= a.state.messages.Keys
      && a.state.sent == st.sent + |a.state.messages.Keys - st.messages.Keys|
      && |a.events| == a.state.sent - st.sent
  {
    var a := CreateVisit(st, keyOf, s, p, d);
    if Creates(st, keyOf, s, p) {
      var k := keyOf(s.vehicles[p.0], s.vehicles[p.1], s.time);
      assert a.state.messages.Keys - st.messages.Keys == {k};
    } else {
      assert a.state.messages.Keys - st.messages.Keys == {};
    }
  }

  lemma KeySetsAdd<K>(x: set<K>, y: set<K>, z: set<K>)
    requires x <= y <= z
    ensures |z - x| == |y - x| + |z - y|
  {
    assert z - x == (y - x) + (z - y);
    assert (y - x) !! (z - y);
  }

  /** Every delay the pair loop logs lies in [0, MESSAGE_DELAY]. */
  lemma {:induction false} CreatePassDelays<K>(st: State<K>, keyOf: (VehId, VehId, real) -> K, s: Snapshot, ps: seq<Pair>, ds: seq<Draw>)
    requires WellFormed(s) && |ds| == |ps|
    requires forall p :: p in ps ==> p.0 < |s.vehicles| && p.1 < |s.vehicles|
    requires forall d :: d in ds ==> ValidDraw(d)
    ensures forall e :: e in CreatePass(st, keyOf, s, ps, ds).events ==> 0.0 <= e.delay <= MessageDelay
    decreases |ps|
  {
    if ps != [] {
      assert ps[0] in ps && ds[0] in ds;
      assert forall p :: p in ps[1..] ==> p in ps;
      assert forall d :: d in ds[1..] ==> d in ds;
      var a := CreateVisit(st, keyOf, s, ps[0], ds[0]);
      CreatePassDelays(a.state, keyOf, s, ps[1..], ds[1..]);
      var b := CreatePass(a.state, keyOf, s, ps[1..], ds[1..]);
      assert CreatePass(st, keyOf, s, ps, ds).events == a.events + b.events;
      assert forall e :: e in a.events ==> e.delay == ds[0].delay;
      assert forall e :: e in a.events + b.events ==> e in a.events || e in b.events;
    }
  }

  /** A message after one update phase has lowered its lifetime. */
  function Aged(msg: Message): Message
  {
    msg.(lifetime := msg.lifetime - LifetimeStep)
  }

  /** The registry after the update phase, stated as a map. */
  function Expire<K(==)>(m: map<K, Message>): map<K, Message>
  {
    map k | k in m && m[k].lifetime - LifetimeStep > 0.0 :: m[k].(lifetime := m[k].lifetime - LifetimeStep)
  }

  /**
   The update phase as the script runs it: one loop lowers every lifetime by
   1/VEHICLE_COMM_SPEED and collects the keys whose lifetime dropped to 0 or
   below, a second loop deletes those keys. Every survivor has a positive
   lifetime, exactly one step lower than before, and is otherwise unchanged;
   the deleted keys are exactly those whose lowered lifetime is not positive.
   */
  method ExpireMessages<K(==)>(m: map<K, Message>) returns (r: map<K, Message>)
    ensures forall k :: k in r <==> k in m && m[k].lifetime - LifetimeStep > 0.0
    ensures forall k :: k in r ==> r[k] == m[k].(lifetime := m[k].lifetime - LifetimeStep)
    ensures forall k :: k in r ==> r[k].lifetime > 0.0
    ensures r == Expire(m)
  {
    var lowered, expired := LowerLifetimes(m);
    r := DropExpired(lowered, expired);
    assert r.Keys == Expire(m).Keys;
  }

  /**
   The first loop of the update phase: every message loses one step of
   lifetime, and the keys left with no positive lifetime are collected.
   */
  method LowerLifetimes<K(==)>(m: map<K, Message>) returns (lowered: map<K, Message>, expired: set<K>)
    ensures lowered.Keys == m.Keys
    ensures forall k :: k in lowered ==> lowered[k] == Aged(m[k])
    ensures forall k :: k in expired <==> k in m && Aged(m[k]).lifetime <= 0.0
  {
    lowered, expired := map[], {};
    var todo := m.Keys;
    while todo != {}
      invariant todo <= m.Keys
      invariant lowered.Keys == m.Keys - todo
      invariant forall k :: k in lowered ==> lowered[k] == Aged(m[k])
      invariant forall k :: k in expired <==> k in lowered && lowered[k].lifetime <= 0.0
      decreases |todo|
    {
      var k :| k in todo;
      lowered := lowered[k := Aged(m[k])];
      if lowered[k].lifetime <= 0.0 {
        expired := expired + {k};
      }
      todo := todo - {k};
    }
  }

  /** The second loop of the update phase: the collected keys are deleted, nothing else changes. */
  method DropExpired<K(==)>(lowered: map<K, Message>, expired: set<K>) returns (r: map<K, Message>)
    ensures r.Keys == lowered.Keys - expired
    ensures forall k :: k in r ==> r[k] == lowered[k]
  {
    r := lowered;
    var pending := expired;
    while pending != {}
      invariant pending <= expired
      invariant r.Keys == lowered.Keys - (expired - pending)
      invariant forall k :: k in r ==> r[k] == lowered[k]
      decreases |pending|
    {
      var k :| k in pending;
      r := r - {k};
      pending := pending - {k};
    }
  }

  /**
   One tick with registry key `keyOf`: the pair loop over every unordered pair
   of vehicle positions, then the update phase. Messages registered before the
   tick age by exactly one step and disappear once that leaves them no
   positive lifetime; each message created this tick is the message of an
   in-range pair (veh1 to veh2 at their distance), aged in the same tick;
   every message left has a positive lifetime; deliveries grow by at most one
   per in-range pair.
   */
  function StepWith<K(==)>(st: State<K>, keyOf: (VehId, VehId, real) -> K, s: Snapshot, ds: seq<Draw>): (o: Outcome<K>)
    requires WellFormed(s) && |ds| == |UnorderedPairs(|s.vehicles|)|
    requires forall d :: d in ds ==> ValidDraw(d)
    ensures forall k :: k in st.messages ==>
              && (k in o.state.messages <==> st.messages[k].lifetime - LifetimeStep > 0.0)
              && (k in o.state.messages ==>
                    o.state.messages[k] == st.messages[k].(lifetime := st.messages[k].lifetime - LifetimeStep))
    ensures forall k :: k in o.state.messages && k !in st.messages ==>
              && o.state.messages[k].time == s.time
              && o.state.messages[k].lifetime == MessageLifetime - LifetimeStep
              && k == keyOf(o.state.messages[k].source, o.state.messages[k].target, s.time)
    ensures forall k :: k in o.state.messages && k !in st.messages ==>
              exists p :: && p in UnorderedPairs(|s.vehicles|) && p.0 < |s.vehicles| && p.1 < |s.vehicles|
                          && PairInRange(s, p) && o.state.messages[k] == Aged(NewMessage(s, p))
    ensures forall k :: k in o.state.messages ==> o.state.messages[k].lifetime > 0.0
    ensures o.state.sent >= st.sent
    ensures o.state.delivered == st.delivered + DeliveredCount(s, UnorderedPairs(|s.vehicles|), ds)
  {
    UnorderedPairsExactlyOnce(|s.vehicles|);
    CreatePassKeeps(st, keyOf, s, UnorderedPairs(|s.vehicles|), ds);
    CreatePassNewEntries(st, keyOf, s, UnorderedPairs(|s.vehicles|), ds);
    CreatePassSent(st, keyOf, s, UnorderedPairs(|s.vehicles|), ds);
    CreatePassDelays(st, keyOf, s, UnorderedPairs(|s.vehicles|), ds);
    var c := CreatePass(st, keyOf, s, UnorderedPairs(|s.vehicles|), ds);
    ExpireNewMessages(s, UnorderedPairs(|s.vehicles|), st.messages, c.state.messages);
    Outcome(c.state.(messages := Expire(c.state.messages)), c.events)
  }

  /** A message of an in-range pair that survives the update phase is that message aged one step. */
  lemma ExpireNewMessages<K>(s: Snapshot, ps: seq<Pair>, before: map<K, Message>, m: map<K, Message>)
    requires WellFormed(s)
    requires forall k :: k in m && k !in before ==> MessageOfLink(s, ps, m[k])
    ensures forall k :: k in Expire(m) && k !in before ==>
              exists p :: && p in ps && p.0 < |s.vehicles| && p.1 < |s.vehicles|
                          && PairInRange(s, p) && Expire(m)[k] == Aged(NewMessage(s, p))
  {
    forall k | k in Expire(m) && k !in before
      ensures exists p :: && p in ps && p.0 < |s.vehicles| && p.1 < |s.vehicles|
                          && PairInRange(s, p) && Expire(m)[k] == Aged(NewMessage(s, p))
    {
      var p :| p in ps && p.0 < |s.vehicles| && p.1 < |s.vehicles| && PairInRange(s, p) && m[k] == NewMessage(s, p);
      assert Expire(m)[k] == Aged(NewMessage(s, p));
    }
  }

  /** The corrected tick: registry keyed by the tuple (veh1, veh2, current_time). */
  function Step(st: State<MsgKey>, s: Snapshot, ds: seq<Draw>): Outcome<MsgKey>
    requires WellFormed(s) && |ds| == |UnorderedPairs(|s.vehicles|)|
    requires forall d :: d in ds ==> ValidDraw(d)
  {
    StepWith(st, TupleKey, s, ds)
  }

  /**
   The final packet delivery ratio: reported only when some message was sent,
   and then deliveries over messages sent; it lies in [0, 1] while
   deliveries do not exceed messages sent.
   */
  function FinalPdr<K(==)>(st: State<K>): (r: Option<real>)
    ensures r.Some? <==> st.sent > 0
    ensures r.Some? ==> r.value * st.sent as real == st.delivered as real
    ensures r.Some? && st.delivered <= st.sent ==> 0.0 <= r.value <= 1.0
  {
    if st.sent > 0 then Some(st.delivered as real / st.sent as real) else None
  }

  /**
   At distinct positions i < j of a well-formed snapshot sit distinct
   vehicles, so the script's range test finds exactly the links.
   */
  lemma InRangeIsLinked(s: Snapshot, p: Pair)
    requires WellFormed(s) && p.0 < p.1 < |s.vehicles|
    ensures PairInRange(s, p) <==> Linked(s, VehicleCommRadius, p)
  {
  }

  /** Deliveries counted over `ps` never outnumber the links in `ps`. */
  lemma {:induction false} DeliveredAtMostLinks(s: Snapshot, ps: seq<Pair>, ds: seq<Draw>)
    requires WellFormed(s) && |ds| == |ps|
    requires forall p :: p in ps ==> p.0 < p.1 < |s.vehicles|
    ensures DeliveredCount(s, ps, ds) <= CountLinked(s, VehicleCommRadius, ps)
  {
    if ps != [] {
      assert ps[0] in ps;
      assert forall p :: p in ps[1..] ==> p in ps;
      InRangeIsLinked(s, ps[0]);
      DeliveredAtMostLinks(s, ps[1..], ds[1..]);
    }
  }

  /**
   With the key (veh1, veh2, current_time), when no key of the visited pairs
   is registered yet, every link of the pairs registers its own message:
   messages sent grows by exactly the number of links.
   */
  lemma {:induction false} FreshKeysCreateOnePerLink(st: State<MsgKey>, s: Snapshot, ps: seq<Pair>, ds: seq<Draw>)
    requires WellFormed(s) && |ds| == |ps| && Distinct(ps)
    requires forall p :: p in ps ==> p.0 < p.1 < |s.vehicles|
    requires forall p :: p in ps ==> TupleKey(s.vehicles[p.0], s.vehicles[p.1], s.time) !in st.messages
    ensures CreatePass(st, TupleKey, s, ps, ds).state.sent == st.sent + CountLinked(s, VehicleCommRadius, ps)
    decreases |ps|
  {
    if ps != [] {
      var p0 := ps[0];
      assert p0 in ps;
      assert forall p :: p in ps[1..] ==> p in ps;
      DistinctTail(ps);
      InRangeIsLinked(s, p0);
      var a := CreateVisit(st, TupleKey, s, p0, ds[0]);
      forall p | p in ps[1..]
        ensures TupleKey(s.vehicles[p.0], s.vehicles[p.1], s.time) !in a.state.messages
      {
        assert p != p0;
      }
      FreshKeysCreateOnePerLink(a.state, s, ps[1..], ds[1..]);
    }
  }

  /** Every registered key is older than time `t`. */
  predicate RegisteredBefore(st: State<MsgKey>, t: real)
  {
    forall k :: k in st.messages ==> k.time < t
  }

  /**
   A tick whose time is later than every registered key registers one message
   per in-range pair, counts at most one delivery per in-range pair, and so
   keeps deliveries at most messages sent.
   */
  lemma StepKeepsDeliveriesBounded(st: State<MsgKey>, s: Snapshot, ds: seq<Draw>)
    requires WellFormed(s) && |ds| == |UnorderedPairs(|s.vehicles|)|
    requires forall d :: d in ds ==> ValidDraw(d)
    requires st.delivered <= st.sent && RegisteredBefore(st, s.time)
    ensures var o := Step(st, s, ds).state;
      && o.sent == st.sent + CountLinked(s, VehicleCommRadius, UnorderedPairs(|s.vehicles|))
      && o.delivered <= o.sent
      && forall k :: k in o.messages ==> k.time <= s.time
  {
    var ps := UnorderedPairs(|s.vehicles|);
    UnorderedPairsExactlyOnce(|s.vehicles|);
    FreshKeysCreateOnePerLink(st, s, ps, ds);
    DeliveredAtMostLinks(s, ps, ds);
  }

  /** Every snapshot is well formed and comes with one valid draw per enumerated pair. */
  predicate RunOk(snaps: seq<Snapshot>, draws: seq<seq<Draw>>)
  {
    && |draws| == |snaps|
    && forall t :: 0 <= t < |snaps| ==>
         && WellFormed(snaps[t])
         && |draws[t]| == |UnorderedPairs(|snaps[t].vehicles|)|
         && forall d :: d in draws[t] ==> ValidDraw(d)
  }

  lemma RunOkTail(snaps: seq<Snapshot>, draws: seq<seq<Draw>>)
    requires RunOk(snaps, draws) && snaps != []
    ensures RunOk(snaps[1..], draws[1..])
  {
    forall t | 0 <= t < |snaps| - 1
      ensures WellFormed(snaps[1..][t]) && |draws[1..][t]| == |UnorderedPairs(|snaps[1..][t].vehicles|)|
      ensures forall d :: d in draws[1..][t] ==> ValidDraw(d)
    {
      assert snaps[1..][t] == snaps[t + 1] && draws[1..][t] == draws[t + 1];
    }
  }

  /**
   The simulation loop over a finite trace, every tick keyed by `keyOf`:
   counters never go down, and a registry holding only positive lifetimes
   keeps that property. The script's own run is `RunWith(_, AsWrittenKey, _, _)`.
   */
  function RunWith<K(==)>(st: State<K>, keyOf: (VehId, VehId, real) -> K, snaps: seq<Snapshot>, draws: seq<seq<Draw>>): (o: Outcome<K>)
    requires RunOk(snaps, draws)
    ensures o.state.sent >= st.sent && o.state.delivered >= st.delivered
    ensures (forall k :: k in st.messages ==> st.messages[k].lifetime > 0.0) ==>
              forall k :: k in o.state.messages ==> o.state.messages[k].lifetime > 0.0
    decreases |snaps|
  {
    if snaps == [] then Outcome(st, [])
    else
      RunOkTail(snaps, draws);
      var a := StepWith(st, keyOf, snaps[0], draws[0]);
      var b := RunWith(a.state, keyOf, snaps[1..], draws[1..]);
      Outcome(b.state, a.events + b.events)
  }

  /** The corrected run: every tick keyed by (veh1, veh2, current_time). */
  function Run(st: State<MsgKey>, snaps: seq<Snapshot>, draws: seq<seq<Draw>>): Outcome<MsgKey>
    requires RunOk(snaps, draws)
  {
    RunWith(st, TupleKey, snaps, draws)
  }

  /** Tick times strictly increase along the trace, as the simulator's clock does. */
  predicate Increasing(snaps: seq<Snapshot>)
  {
    forall a, b :: 0 <= a < b < |snaps| ==> snaps[a].time < snaps[b].time
  }

  /**
   Over a run with increasing tick times, deliveries never exceed messages
   sent, so the final PDR, when reported, lies in [0, 1].
   */
  lemma {:induction false} RunKeepsDeliveriesBounded(st: State<MsgKey>, snaps: seq<Snapshot>, draws: seq<seq<Draw>>)
    requires RunOk(snaps, draws) && Increasing(snaps)
    requires st.delivered <= st.sent
    requires snaps != [] ==> RegisteredBefore(st, snaps[0].time)
    ensures var o := Run(st, snaps, draws).state;
      && o.delivered <= o.sent
      && (FinalPdr(o).Some? ==> 0.0 <= FinalPdr(o).value <= 1.0)
    decreases |snaps|
  {
    if snaps != [] {
      RunOkTail(snaps, draws);
      StepKeepsDeliveriesBounded(st, snaps[0], draws[0]);
      var a := Step(st, snaps[0], draws[0]).state;
      if |snaps| > 1 {
        assert snaps[0].time < snaps[1].time;
        assert RegisteredBefore(a, snaps[1..][0].time);
      }
      assert Increasing(snaps[1..]) by {
        forall i, j | 0 <= i < j < |snaps| - 1 ensures snaps[1..][i].time < snaps[1..][j].time {
          assert snaps[1..][i] == snaps[i + 1] && snaps[1..][j] == snaps[j + 1];
        }
      }
      RunKeepsDeliveriesBounded(a, snaps[1..], draws[1..]);
    }
  }

  /** No tick of the trace has time `t`. */
  predicate AvoidsTime(snaps: seq<Snapshot>, t: real)
  {
    forall i :: 0 <= i < |snaps| ==> snaps[i].time != t
  }

  lemma AvoidsTimeTail(snaps: seq<Snapshot>, t: real)
    requires snaps != [] && AvoidsTime(snaps, t)
    ensures AvoidsTime(snaps[1..], t)
  {
    forall i | 0 <= i < |snaps| - 1 ensures snaps[1..][i].time != t {
      assert snaps[1..][i] == snaps[i + 1];
    }
  }

  /** Key `keyOf` records the tick time, and `timeOf` reads it back. */
  ghost predicate CarriesTime<K>(keyOf: (VehId, VehId, real) -> K, timeOf: K -> real)
  {
    forall v1, v2, t :: timeOf(keyOf(v1, v2, t)) == t
  }

  /** Both the key the script builds and the tuple key record the tick time. */
  lemma KeysCarryTime()
    ensures CarriesTime(TupleKey, (k: MsgKey) => k.time)
    ensures CarriesTime(AsWrittenKey, (k: TextKey) => k.time)
  {
  }

  /**
   Under a key that records the tick time, a key that is gone stays gone
   while no tick reuses its time: expired messages are never revived.
   */
  lemma {:induction false} AbsentStaysAbsent<K>(st: State<K>, keyOf: (VehId, VehId, real) -> K, timeOf: K -> real,
                                                     snaps: seq<Snapshot>, draws: seq<seq<Draw>>, k: K)
    requires CarriesTime(keyOf, timeOf)
    requires RunOk(snaps, draws) && AvoidsTime(snaps, timeOf(k)) && k !in st.messages
    ensures k !in RunWith(st, keyOf, snaps, draws).state.messages
    decreases |snaps|
  {
    if snaps != [] {
      RunOkTail(snaps, draws);
      AvoidsTimeTail(snaps, timeOf(k));
      var a := StepWith(st, keyOf, snaps[0], draws[0]).state;
      assert forall j :: j in a.messages && j !in st.messages ==> timeOf(j) == snaps[0].time;
      AbsentStaysAbsent(a, keyOf, timeOf, snaps[1..], draws[1..], k);
    }
  }

  /**
   Under a key that records the tick time, a registered message loses exactly
   1/VEHICLE_COMM_SPEED of lifetime per tick and is present after the run
   exactly when what is left is positive; its other fields never change.
   */
  lemma {:induction false} AgesOneStepPerTick<K>(st: State<K>, keyOf: (VehId, VehId, real) -> K, timeOf: K -> real,
                                                      snaps: seq<Snapshot>, draws: seq<seq<Draw>>, k: K)
    requires CarriesTime(keyOf, timeOf)
    requires RunOk(snaps, draws) && AvoidsTime(snaps, timeOf(k))
    requires k in st.messages && st.messages[k].lifetime > 0.0
    ensures var m := RunWith(st, keyOf, snaps, draws).state.messages;
      var left := st.messages[k].lifetime - |snaps| as real * LifetimeStep;
      && (k in m <==> left > 0.0)
      && (k in m ==> m[k] == st.messages[k].(lifetime := left))
    decreases |snaps|
  {
    if snaps != [] {
      RunOkTail(snaps, draws);
      AvoidsTimeTail(snaps, timeOf(k));
      var a := StepWith(st, keyOf, snaps[0], draws[0]).state;
      var m := RunWith(st, keyOf, snaps, draws).state.messages;
      assert m == RunWith(a, keyOf, snaps[1..], draws[1..]).state.messages;
      var l := st.messages[k].lifetime;
      var n := |snaps| as real;
      OneSecondPerTick();
      assert n * LifetimeStep == n && (n - 1.0) * LifetimeStep == n - 1.0;
      assert |snaps[1..]| as real == n - 1.0;
      if k in a.messages {
        assert a.messages[k] == st.messages[k].(lifetime := l - 1.0);
        AgesOneStepPerTick(a, keyOf, timeOf, snaps[1..], draws[1..], k);
      } else {
        AbsentStaysAbsent(a, keyOf, timeOf, snaps[1..], draws[1..], k);
        assert l - 1.0 <= 0.0;
        assert k !in m;
      }
    }
  }

  /**
   Under a key that records the tick time, a message is aged in the tick that
   creates it and removed in the fifth update pass counting that tick: it is
   still registered after the next three ticks and gone after the fourth.
   */
  lemma CreatedMessageLifespan<K>(st: State<K>, keyOf: (VehId, VehId, real) -> K, timeOf: K -> real,
                                      s: Snapshot, ds: seq<Draw>, snaps: seq<Snapshot>, draws: seq<seq<Draw>>, k: K)
    requires CarriesTime(keyOf, timeOf)
    requires WellFormed(s) && |ds| == |UnorderedPairs(|s.vehicles|)| && forall d :: d in ds ==> ValidDraw(d)
    requires RunOk(snaps, draws) && forall i :: 0 <= i < |snaps| ==> snaps[i].time > s.time
    requires k !in st.messages && k in StepWith(st, keyOf, s, ds).state.messages
    ensures k in RunWith(StepWith(st, keyOf, s, ds).state, keyOf, snaps, draws).state.messages <==> |snaps| < 4
  {
    var a := StepWith(st, keyOf, s, ds).state;
    var msg := a.messages[k];
    assert k == keyOf(msg.source, msg.target, s.time);
    assert timeOf(k) == s.time;
    assert AvoidsTime(snaps, timeOf(k));
    OneSecondPerTick();
    assert msg.lifetime == 4.0;
    AgesOneStepPerTick(a, keyOf, timeOf, snaps, draws, k);
    var n := |snaps| as real;
    var left := msg.lifetime - n * LifetimeStep;
    assert left > 0.0 <==> |snaps| < 4 by {
      assert n * LifetimeStep == n;
      assert left == 4.0 - n;
    }
  }

  /**
   The registry key as the script builds it: the string
   f"{veh1}_{veh2}_{current_time}". The time part never contains '_', so the
   string is determined by `veh1 + "_" + veh2` and the time.
   */
  datatype TextKey = TextKey(ids: string, time: real)

  function AsWrittenKey(v1: VehId, v2: VehId, t: real): TextKey
  {
    TextKey(v1 + "_" + v2, t)
  }

  /** Three vehicles at one spot whose ids make two pair keys coincide. */
  function CollisionSnapshot(): (s: Snapshot)
    ensures WellFormed(s) && |s.vehicles| == 3
    ensures s.vehicles == ["a_b", "a", "b_a"] && s.time == 1.0
    ensures forall i :: 0 <= i < 3 ==> PosAt(s, i) == Pos(0.0, 0.0)
  {
    var vs := ["a_b", "a", "b_a"];
    assert vs[0] != vs[1] by { assert |vs[0]| != |vs[1]|; }
    assert vs[1] != vs[2] by { assert |vs[1]| != |vs[2]|; }
    assert vs[0] != vs[2] by { assert vs[0][0] != vs[2][0]; }
    Snapshot(1.0, vs, map v | v in vs :: Pos(0.0, 0.0))
  }

  /** One draw per pair: no delay, and a coin that always delivers. */
  function SureDraws(): (ds: seq<Draw>)
    ensures |ds| == 3 && forall d :: d in ds ==> ValidDraw(d) && Delivered(d)
  {
    [Draw(0.0, 0.0), Draw(0.0, 0.0), Draw(0.0, 0.0)]
  }

  /** Three vehicles, all within range of each other, and valid draws that all deliver. */
  predicate Crowded(s: Snapshot, ds: seq<Draw>)
  {
    && WellFormed(s) && |s.vehicles| == 3 && |ds| == 3
    && PairInRange(s, (0, 1)) && PairInRange(s, (0, 2)) && PairInRange(s, (1, 2))
    && (forall d :: d in ds ==> ValidDraw(d) && Delivered(d))
  }

  /**
   A first tick over a crowded snapshot whose first and last pair share a key:
   two messages sent, three deliveries counted.
   */
  lemma SharedKeyStepOvercounts<K>(keyOf: (VehId, VehId, real) -> K, s: Snapshot, ds: seq<Draw>)
    requires Crowded(s, ds)
    requires keyOf(s.vehicles[0], s.vehicles[1], s.time) == keyOf(s.vehicles[1], s.vehicles[2], s.time)
    requires keyOf(s.vehicles[0], s.vehicles[2], s.time) != keyOf(s.vehicles[0], s.vehicles[1], s.time)
    ensures StepWith(Empty(), keyOf, s, ds).state.sent == 2
    ensures StepWith(Empty(), keyOf, s, ds).state.delivered == 3
  {
  }

  /** A first tick over a crowded snapshot whose three pair keys differ: three messages, three deliveries. */
  lemma DistinctKeysStepCounts<K>(keyOf: (VehId, VehId, real) -> K, s: Snapshot, ds: seq<Draw>)
    requires Crowded(s, ds)
    requires keyOf(s.vehicles[0], s.vehicles[1], s.time) != keyOf(s.vehicles[0], s.vehicles[2], s.time)
    requires keyOf(s.vehicles[0], s.vehicles[1], s.time) != keyOf(s.vehicles[1], s.vehicles[2], s.time)
    requires keyOf(s.vehicles[0], s.vehicles[2], s.time) != keyOf(s.vehicles[1], s.vehicles[2], s.time)
    ensures StepWith(Empty(), keyOf, s, ds).state.sent == 3
    ensures StepWith(Empty(), keyOf, s, ds).state.delivered == 3
  {
  }

  /** The ratio reported for given counters is the one value that scales messages sent to deliveries. */
  lemma PdrOfCounts<K>(st: State<K>, x: real)
    requires st.sent > 0 && x * st.sent as real == st.delivered as real
    ensures FinalPdr(st) == Some(x)
  {
    var r, n := FinalPdr(st).value, st.sent as real;
    assert r * n == x * n;
  }

  /** Distinct vehicles give distinct (veh1, veh2, current_time) keys. */
  lemma TupleKeysApart(s: Snapshot)
    requires WellFormed(s) && |s.vehicles| == 3
    ensures TupleKey(s.vehicles[0], s.vehicles[1], s.time) != TupleKey(s.vehicles[0], s.vehicles[2], s.time)
    ensures TupleKey(s.vehicles[0], s.vehicles[1], s.time) != TupleKey(s.vehicles[1], s.vehicles[2], s.time)
    ensures TupleKey(s.vehicles[0], s.vehicles[2], s.time) != TupleKey(s.vehicles[1], s.vehicles[2], s.time)
  {
    assert s.vehicles[0] != s.vehicles[1] && s.vehicles[1] != s.vehicles[2];
  }

  /** `CollisionSnapshot` with `SureDraws` is a tick of the kind the two lemmas below describe. */
  lemma CollisionSnapshotCrowded()
    ensures Crowded(CollisionSnapshot(), SureDraws())
    ensures CollisionSnapshot().vehicles == ["a_b", "a", "b_a"]
  {
    var s := CollisionSnapshot();
    assert PosAt(s, 0) == Pos(0.0, 0.0) && PosAt(s, 1) == Pos(0.0, 0.0) && PosAt(s, 2) == Pos(0.0, 0.0);
  }

  /** The ids "a_b", "a", "b_a" make the first and last pair keys coincide, at any time. */
  lemma AsWrittenKeysCollide(t: real)
    ensures AsWrittenKey("a_b", "a", t) == AsWrittenKey("a", "b_a", t)
    ensures AsWrittenKey("a_b", "b_a", t) != AsWrittenKey("a_b", "a", t)
  {
    assert "a_b" + "_" + "a" == "a" + "_" + "b_a";
    assert |AsWrittenKey("a_b", "b_a", t).ids| == 7;
  }

  /**
   With the key the script builds, three vehicles "a_b", "a" and "b_a" within
   range of each other (`CollisionSnapshot` is one such tick): the pairs
   ("a_b", "a") and ("a", "b_a") share the key "a_b_a_<time>", the second pair
   registers no message, yet its delivery is still counted, so deliveries
   exceed messages sent and the reported PDR is 150%.
   */
  lemma AsWrittenKeyOvercountsDeliveries(s: Snapshot, ds: seq<Draw>)
    requires Crowded(s, ds) && s.vehicles == ["a_b", "a", "b_a"]
    ensures AsWrittenKey(s.vehicles[0], s.vehicles[1], s.time) == AsWrittenKey(s.vehicles[1], s.vehicles[2], s.time)
    ensures var o := StepWith(Empty(), AsWrittenKey, s, ds).state;
      o.sent == 2 && o.delivered == 3 && FinalPdr(o) == Some(1.5)
  {
    AsWrittenKeysCollide(s.time);
    SharedKeyStepOvercounts(AsWrittenKey, s, ds);
    PdrOfCounts(StepWith(Empty(), AsWrittenKey, s, ds).state, 1.5);
  }

  /** The same kind of tick keyed by (veh1, veh2, current_time): one message per in-range pair. */
  lemma TupleKeyCountsEveryPair(s: Snapshot, ds: seq<Draw>)
    requires Crowded(s, ds)
    ensures var o := Step(Empty(), s, ds).state;
      o.sent == 3 && o.delivered == 3 && FinalPdr(o) == Some(1.0)
  {
    TupleKeysApart(s);
    DistinctKeysStepCounts(TupleKey, s, ds);
    PdrOfCounts(Step(Empty(), s, ds).state, 1.0);
  }
}

=== FILE: mobility.dfy ===
/**
 What the mobility simulator hands the engine on each tick: the simulation
 time, the list of active vehicle ids, and a position for each of them.
 */
module Mobility {
  import opened Geometry

  /** A vehicle id as the simulator reports it. */
  type VehId = string

  /** One tick of the mobility trace. */
  datatype Snapshot = Snapshot(time: real, vehicles: seq<VehId>, pos: map<VehId, Pos>)

  /** No element of `s` occurs twice. */
  predicate Distinct<T(==)>(s: seq<T>)
  {
    forall i, j :: 0 <= i < j < |s| ==> s[i] != s[j]
  }

  /**
   The simulator lists each active vehicle once and can report a position
   for every vehicle it lists.
   */
  predicate WellFormed(s: Snapshot)
  {
    Distinct(s.vehicles) && forall v :: v in s.vehicles ==> v in s.pos
  }

  /** Position of the vehicle at list index `i`. */
  function PosAt(s: Snapshot, i: nat): Pos
    requires WellFormed(s) && i < |s.vehicles|
  {
    s.pos[s.vehicles[i]]
  }

  /** Dropping the first element keeps a sequence free of repeats, and the first element does not recur. */
  lemma DistinctTail<T>(s: seq<T>)
    requires s != [] && Distinct(s)
    ensures Distinct(s[1..]) && s[0] !in s[1..]
  {
    var rest := s[1..];
    forall i, j | 0 <= i < j < |rest| ensures rest[i] != rest[j] {
      assert rest[i] == s[i + 1] && rest[j] == s[j + 1];
    }
    forall k | 0 <= k < |rest| ensures rest[k] != s[0] {
      assert rest[k] == s[k + 1];
    }
  }
}

=== FILE: simple_dsrc.dfy ===
/**
 The simple DSRC script (simulate_dsrc.py): each tick a roadside unit (RSU)
 talks to every vehicle in its range, every ordered pair of vehicles in range
 of each other exchanges a message, and the run keeps sent/received counters,
 the largest RSU distance seen, and a last-communication time per vehicle.

 `Step` is the body of the script's `while` loop with the simulator calls
 replaced by a `Snapshot`; `Run` folds it over a trace.
 */
module SimpleDsrc {
  import opened Geometry
  import opened Mobility
  import opened Links

  /** Position of the roadside unit, in metres. */
  const RsuPos := Pos(50.0, 0.0)
  /** RSU-to-vehicle communication range, in metres. */
  const RsuRadius: real := 50.0
  /** Vehicle-to-vehicle communication range, in metres. */
  const VehicleCommRadius: real := 30.0
  /** An RSU exchange with a vehicle is logged again only after more than this many seconds. */
  const FreshnessWindow: real := 1.0

  /**
   A line of the communication log. Ranges are squared distances; `Summary`
   is the block with the maximum range and the PDR in percent.
   */
  datatype Event =
    | Rtv(time: real, target: VehId, delay: real, rangeSq: real)
    | Vtv(time: real, source: VehId, target: VehId, delay: real, rangeSq: real)
    | Summary(maxRangeSq: real, pdr: real)

  /**
   State kept across ticks: packet counters, the square of the largest RSU
   distance seen so far, and the last communication time of each vehicle.
   */
  datatype State = State(sent: nat, received: nat, maxRangeSq: real, lastComms: map<VehId, real>)

  /** The state after some processing, with the log lines it produced. */
  datatype Outcome = Outcome(state: State, events: seq<Event>)

  /** The state before the first tick. */
  const Init := State(0, 0, 0.0, map[])

  /** The vehicle is within the RSU's range, boundary included. */
  predicate RsuLink(p: Pos)
  {
    InRange(p, RsuPos, RsuRadius)
  }

  /** The freshness gate: no stored time, or the stored time is more than a second old. */
  predicate Fresh(last: map<VehId, real>, v: VehId, now: real)
  {
    v !in last || now - last[v] > FreshnessWindow
  }

  /** The reported delay: time since the stored time, or 0 when there is none. */
  function SinceLast(last: map<VehId, real>, v: VehId, now: real): real
  {
    now - (if v in last then last[v] else now)
  }

  /** Every stored time of `a` is still stored in `b`, possibly later. */
  predicate Advances(a: map<VehId, real>, b: map<VehId, real>)
  {
    forall v :: v in a ==> v in b && a[v] <= b[v]
  }

  /** Every stored time of `a` is still stored in `b`, unchanged. */
  predicate Keeps(a: map<VehId, real>, b: map<VehId, real>)
  {
    forall v :: v in a ==> v in b && b[v] == a[v]
  }

  /** The vehicles of `vs` that are within the RSU's range. */
  function RsuLinked(vs: seq<VehId>, pos: map<VehId, Pos>): set<VehId>
    requires forall v :: v in vs ==> v in pos
  {
    set v | v in vs && RsuLink(pos[v])
  }

  /**
   One iteration of the RSU loop for vehicle `v` at position `p`: the maximum
   range is raised to this vehicle's distance whether or not it is in range;
   an in-range vehicle counts one packet sent and one received, and is logged
   (and its time stored) only when it passes the freshness gate.
   */
  function RtvVisit(st: State, now: real, v: VehId, p: Pos): (o: Outcome)
    ensures o.state.maxRangeSq >= st.maxRangeSq && o.state.maxRangeSq >= SqDist(p, RsuPos)
    ensures o.state.maxRangeSq == st.maxRangeSq || o.state.maxRangeSq == SqDist(p, RsuPos)
    ensures o.state.sent == st.sent + (if RsuLink(p) then 1 else 0)
    ensures o.state.received == st.received + (if RsuLink(p) then 1 else 0)
    ensures o.events != [] <==> RsuLink(p) && Fresh(st.lastComms, v, now)
    ensures o.events != [] ==> o.events == [Rtv(now, v, SinceLast(st.lastComms, v, now), SqDist(p, RsuPos))]
    ensures forall w :: w != v ==>
              && (w in o.state.lastComms <==> w in st.lastComms)
              && (w in st.lastComms ==> o.state.lastComms[w] == st.lastComms[w])
    ensures v in o.state.lastComms <==> v in st.lastComms || o.events != []
    ensures v in o.state.lastComms ==>
              o.state.lastComms[v] == if o.events != [] then now else st.lastComms[v]
    ensures Advances(st.lastComms, o.state.lastComms)
  {
    var d := SqDist(p, RsuPos);
    var maxSq := if d > st.maxRangeSq then d else st.maxRangeSq;
    if RsuLink(p) then
      var logged := Fresh(st.lastComms, v, now);
      var events := if logged then [Rtv(now, v, SinceLast(st.lastComms, v, now), d)] else [];
      var last := if logged then st.lastComms[v := now] else st.lastComms;
      Outcome(State(st.sent + 1, st.received + 1, maxSq, last), events)
    else
      Outcome(st.(maxRangeSq := maxSq), [])
  }

  /**
   The script keeps `max_range`, the largest RSU distance; the model keeps its
   square. If the stored square is `m * m` for the script's maximum `m` and the
   vehicle lies at distance `d`, the stored square afterwards is the square of
   the script's updated maximum, which is raised to `d` exactly when `d > m`.
   */
  lemma MaxRangeTracksScript(st: State, now: real, v: VehId, p: Pos, m: real, d: real)
    requires m >= 0.0 && st.maxRangeSq == m * m
    requires d >= 0.0 && d * d == SqDist(p, RsuPos)
    ensures var next := if d > m then d else m;
      RtvVisit(st, now, v, p).state.maxRangeSq == next * next
  {
    SquareComparison(d, m);
  }

  /**
   The RSU loop over all vehicles of the tick. The maximum range never goes
   down, ends at least the RSU distance of every listed vehicle (in range or
   not), and is either the old maximum or one of those distances.
   */
  function RtvPass(st: State, now: real, vs: seq<VehId>, pos: map<VehId, Pos>): (o: Outcome)
    requires forall v :: v in vs ==> v in pos
    ensures o.state.maxRangeSq >= st.maxRangeSq
    ensures forall v :: v in vs ==> o.state.maxRangeSq >= SqDist(pos[v], RsuPos)
    ensures o.state.maxRangeSq == st.maxRangeSq
         || exists v :: v in vs && o.state.maxRangeSq == SqDist(pos[v], RsuPos)
    ensures o.state.sent >= st.sent
    ensures o.state.sent - st.sent == o.state.received - st.received
    ensures Advances(st.lastComms, o.state.lastComms)
    ensures forall e :: e in o.events ==> e.Rtv? && e.time == now && e.target in vs
    decreases |vs|
  {
    if vs == [] then Outcome(st, [])
    else
      var a := RtvVisit(st, now, vs[0], pos[vs[0]]);
      var b := RtvPass(a.state, now, vs[1..], pos);
      assert vs[0] in vs;
      assert forall v :: v in vs[1..] ==> v in vs;
      Outcome(b.state, a.events + b.events)
  }

  /** Each in-range vehicle adds exactly one packet sent and one received. */
  lemma {:induction false} RtvPassCounts(st: State, now: real, vs: seq<VehId>, pos: map<VehId, Pos>)
    requires Distinct(vs) && forall v :: v in vs ==> v in pos
    ensures RtvPass(st, now, vs, pos).state.sent == st.sent + |RsuLinked(vs, pos)|
    ensures RtvPass(st, now, vs, pos).state.received == st.received + |RsuLinked(vs, pos)|
    decreases |vs|
  {
    if vs == [] {
      assert RsuLinked(vs, pos) == {};
    } else {
      var a := RtvVisit(st, now, vs[0], pos[vs[0]]);
      DistinctTail(vs);
      RtvPassCounts(a.state, now, vs[1..], pos);
      RsuLinkedCons(vs, pos);
    }
  }

  lemma RsuLinkedCons(vs: seq<VehId>, pos: map<VehId, Pos>)
    requires vs != [] && forall v :: v in vs ==> v in pos
    requires vs[0] !in vs[1..]
    ensures |RsuLinked(vs, pos)| == |RsuLinked(vs[1..], pos)| + (if RsuLink(pos[vs[0]]) then 1 else 0)
  {
    var rest := vs[1..];
    assert forall w :: w in vs <==> w == vs[0] || w in rest by {
      assert vs == [vs[0]] + rest;
    }
    if RsuLink(pos[vs[0]]) {
      assert RsuLinked(vs, pos) == RsuLinked(rest, pos) + {vs[0]};
    } else {
      assert RsuLinked(vs, pos) == RsuLinked(rest, pos);
    }
  }

  /**
   The freshness gate over a whole tick, stored times: an in-range vehicle
   ends the tick with a stored time, which is the current time when it passed
   the gate (no stored time, or one more than a second old) and its old
   stored time otherwise. Every other vehicle keeps its stored time, or its
   lack of one.
   */
  lemma {:induction false} RtvPassStamps(st: State, now: real, vs: seq<VehId>, pos: map<VehId, Pos>)
    requires Distinct(vs) && forall v :: v in vs ==> v in pos
    ensures var o := RtvPass(st, now, vs, pos);
      && (forall w :: w in vs && RsuLink(pos[w]) ==>
            && w in o.state.lastComms
            && o.state.lastComms[w] == (if Fresh(st.lastComms, w, now) then now else st.lastComms[w]))
      && (forall w :: !(w in vs && RsuLink(pos[w])) ==>
            && (w in o.state.lastComms <==> w in st.lastComms)
            && (w in st.lastComms ==> o.state.lastComms[w] == st.lastComms[w]))
    decreases |vs|
  {
    if vs != [] {
      var v := vs[0];
      var a := RtvVisit(st, now, v, pos[v]);
      var rest := vs[1..];
      DistinctTail(vs);
      assert forall w :: w in vs <==> w == v || w in rest by {
        assert vs == [v] + rest;
      }
      RtvPassStamps(a.state, now, rest, pos);
      // vehicles after the first see the same stored times as at the start of the tick
      assert forall w :: w in rest ==> Fresh(a.state.lastComms, w, now) == Fresh(st.lastComms, w, now);
    }
  }

  /**
   The freshness gate over a whole tick, logged vehicles: every vehicle in
   range that passes the gate gets an RTV line carrying the time since its
   stored time (0 when there is none) and its squared RSU distance.
   */
  lemma {:induction false} RtvPassLogsFresh(st: State, now: real, vs: seq<VehId>, pos: map<VehId, Pos>)
    requires Distinct(vs) && forall v :: v in vs ==> v in pos
    ensures forall w :: w in vs && RsuLink(pos[w]) && Fresh(st.lastComms, w, now) ==>
              Rtv(now, w, SinceLast(st.lastComms, w, now), SqDist(pos[w], RsuPos)) in RtvPass(st, now, vs, pos).events
    decreases |vs|
  {
    if vs != [] {
      var v := vs[0];
      var a := RtvVisit(st, now, v, pos[v]);
      var rest := vs[1..];
      DistinctTail(vs);
      assert forall w :: w in vs <==> w == v || w in rest by {
        assert vs == [v] + rest;
      }
      RtvPassLogsFresh(a.state, now, rest, pos);
      // vehicles after the first see the same stored times as at the start of the tick
      assert forall w :: w in rest ==>
        Fresh(a.state.lastComms, w, now) == Fresh(st.lastComms, w, now)
        && SinceLast(a.state.lastComms, w, now) == SinceLast(st.lastComms, w, now);
    }
  }

  /**
   The freshness gate over a whole tick, log lines: each RTV line is for a
   vehicle of the tick that is in range and passes the gate, and carries the
   time since its stored time and its squared RSU distance.
   */
  lemma {:induction false} RtvPassLogsOnlyFresh(st: State, now: real, vs: seq<VehId>, pos: map<VehId, Pos>)
    requires Distinct(vs) && forall v :: v in vs ==> v in pos
    ensures forall e :: e in RtvPass(st, now, vs, pos).events ==>
              && e.Rtv?
              && e.target in vs && RsuLink(pos[e.target]) && Fresh(st.lastComms, e.target, now)
              && e == Rtv(now, e.target, SinceLast(st.lastComms, e.target, now), SqDist(pos[e.target], RsuPos))
    decreases |vs|
  {
    if vs != [] {
      var v := vs[0];
      var a := RtvVisit(st, now, v, pos[v]);
      var rest := vs[1..];
      DistinctTail(vs);
      assert forall w :: w in rest ==> w in vs;
      RtvPassLogsOnlyFresh(a.state, now, rest, pos);
      // vehicles after the first see the same stored times as at the start of the tick
      assert forall w :: w in rest ==>
        Fresh(a.state.lastComms, w, now) == Fresh(st.lastComms, w, now)
        && SinceLast(a.state.lastComms, w, now) == SinceLast(st.lastComms, w, now);
    }
  }

  /** `veh1 -> veh2` (and back) was logged as a VTV line in `events`. */
  predicate Logged(events: seq<Event>, source: VehId, target: VehId)
  {
    exists e :: e in events && e.Vtv? && e.source == source && e.target == target
  }

  /**
   One iteration of the VTV double loop for positions `p.0` and `p.1`. A link
   counts one packet sent and none received. For each direction, a line is
   logged exactly when the sending vehicle already had a stored time, with the
   time since it as the delay; a vehicle with no stored time gets the current
   time instead. Stored times are never overwritten.
   */
  function VtvVisit(st: State, s: Snapshot, p: Pair): (o: Outcome)
    requires WellFormed(s) && p.0 < |s.vehicles| && p.1 < |s.vehicles|
    ensures o.state.received == st.received && o.state.maxRangeSq == st.maxRangeSq
    ensures o.state.sent == st.sent + (if Linked(s, VehicleCommRadius, p) then 1 else 0)
    ensures Keeps(st.lastComms, o.state.lastComms)
    ensures forall w :: w in o.state.lastComms && w !in st.lastComms ==>
              && o.state.lastComms[w] == s.time
              && Linked(s, VehicleCommRadius, p)
              && (w == s.vehicles[p.0] || w == s.vehicles[p.1])
    ensures Linked(s, VehicleCommRadius, p) ==>
              && s.vehicles[p.0] in o.state.lastComms
              && s.vehicles[p.1] in o.state.lastComms
              && (Logged(o.events, s.vehicles[p.0], s.vehicles[p.1]) <==> s.vehicles[p.0] in st.lastComms)
              && (Logged(o.events, s.vehicles[p.1], s.vehicles[p.0]) <==> s.vehicles[p.1] in st.lastComms)
    ensures forall e :: e in o.events ==>
              && Linked(s, VehicleCommRadius, p)
              && e.Vtv? && e.time == s.time
              && e.source in st.lastComms && e.delay == s.time - st.lastComms[e.source]
              && e.rangeSq == SqDist(PosAt(s, p.0), PosAt(s, p.1))
              && ((e.source == s.vehicles[p.0] && e.target == s.vehicles[p.1])
                  || (e.source == s.vehicles[p.1] && e.target == s.vehicles[p.0]))
  {
    if Linked(s, VehicleCommRadius, p) then
      var v1, v2, now := s.vehicles[p.0], s.vehicles[p.1], s.time;
      var d := SqDist(PosAt(s, p.0), PosAt(s, p.1));
      var e1 := if v1 in st.lastComms then [Vtv(now, v1, v2, now - st.lastComms[v1], d)] else [];
      var m1 := if v1 in st.lastComms then st.lastComms else st.lastComms[v1 := now];
      var e2 := if v2 in m1 then [Vtv(now, v2, v1, now - m1[v2], d)] else [];
      var m2 := if v2 in m1 then m1 else m1[v2 := now];
      assert e1 != [] ==> e1[0] in e1 + e2;
      assert e2 != [] ==> e2[0] in e1 + e2;
      Outcome(st.(sent := st.sent + 1, lastComms := m2), e1 + e2)
    else
      Outcome(st, [])
  }

  /** `e` is the VTV line of link `p`, in one direction or the other, with the link's distance. */
  predicate LineOfLink(s: Snapshot, p: Pair, e: Event)
    requires WellFormed(s) && p.0 < |s.vehicles| && p.1 < |s.vehicles|
  {
    && e.Vtv?
    && e.rangeSq == SqDist(PosAt(s, p.0), PosAt(s, p.1))
    && ((e.source == s.vehicles[p.0] && e.target == s.vehicles[p.1])
        || (e.source == s.vehicles[p.1] && e.target == s.vehicles[p.0]))
  }

  /** `w` is an endpoint of some link among the pairs `ps`. */
  predicate StampedByLink(s: Snapshot, ps: seq<Pair>, w: VehId)
    requires WellFormed(s)
  {
    exists p :: p in ps && Linked(s, VehicleCommRadius, p) && (w == s.vehicles[p.0] || w == s.vehicles[p.1])
  }

  /**
   The VTV double loop over the pairs `ps`: one packet sent per link, none
   received; stored times are only ever added (at the current time, for
   vehicles of a link), never changed; every logged line belongs to a link of
   `ps`, with its distance, and its delay is the time since the sender's
   stored time.
   */
  function VtvPass(st: State, s: Snapshot, ps: seq<Pair>): (o: Outcome)
    requires WellFormed(s) && forall p :: p in ps ==> p.0 < |s.vehicles| && p.1 < |s.vehicles|
    ensures o.state.received == st.received && o.state.maxRangeSq == st.maxRangeSq
    ensures o.state.sent == st.sent + CountLinked(s, VehicleCommRadius, ps)
    ensures Keeps(st.lastComms, o.state.lastComms)
    ensures forall w :: w in o.state.lastComms && w !in st.lastComms ==>
              o.state.lastComms[w] == s.time && w in s.vehicles
    ensures forall w :: w in o.state.lastComms && w !in st.lastComms ==> StampedByLink(s, ps, w)
    ensures forall p :: p in ps && Linked(s, VehicleCommRadius, p) ==>
              s.vehicles[p.0] in o.state.lastComms && s.vehicles[p.1] in o.state.lastComms
    ensures forall e :: e in o.events ==>
              && e.Vtv? && e.time == s.time
              && e.source in o.state.lastComms && e.delay == s.time - o.state.lastComms[e.source]
              && e.source in s.vehicles && e.target in s.vehicles
    ensures forall e :: e in o.events ==>
              exists p :: p in ps && Linked(s, VehicleCommRadius, p) && LineOfLink(s, p, e)
    decreases |ps|
  {
    if ps == [] then Outcome(st, [])
    else
      var a := VtvVisit(st, s, ps[0]);
      assert ps[0] in ps;
      assert forall p :: p in ps[1..] ==> p in ps;
      var b := VtvPass(a.state, s, ps[1..]);
      VtvLinesJoin(s, ps, st.lastComms, b.state.lastComms, a.events, b.events);
      VtvStampsJoin(s, ps, st.lastComms, a.state.lastComms, b.state.lastComms);
      Outcome(b.state, a.events + b.events)
  }

  /** The VTV line vehicle `source` (at position `i`) writes to `target` (at `j`), given its stored time. */
  function VtvLine(s: Snapshot, last: map<VehId, real>, i: nat, j: nat): Event
    requires WellFormed(s) && i < |s.vehicles| && j < |s.vehicles| && s.vehicles[i] in last
  {
    Vtv(s.time, s.vehicles[i], s.vehicles[j], s.time - last[s.vehicles[i]], SqDist(PosAt(s, i), PosAt(s, j)))
  }

  /**
   For every link of `ps`, each endpoint with a stored time in `last` has its
   line, carrying the delay since that stored time, among `events`.
   */
  predicate LogsStamped(s: Snapshot, ps: seq<Pair>, last: map<VehId, real>, events: seq<Event>)
    requires WellFormed(s)
  {
    forall p :: p in ps && Linked(s, VehicleCommRadius, p) ==>
      && (s.vehicles[p.0] in last ==> VtvLine(s, last, p.0, p.1) in events)
      && (s.vehicles[p.1] in last ==> VtvLine(s, last, p.1, p.0) in events)
  }

  /** One pair writes the line of each endpoint that already had a stored time. */
  lemma VtvVisitLogsStamped(st: State, s: Snapshot, p: Pair)
    requires WellFormed(s) && p.0 < |s.vehicles| && p.1 < |s.vehicles|
    ensures LogsStamped(s, [p], st.lastComms, VtvVisit(st, s, p).events)
  {
    var evs := VtvVisit(st, s, p).events;
    if Linked(s, VehicleCommRadius, p) {
      var v1, v2, last := s.vehicles[p.0], s.vehicles[p.1], st.lastComms;
      var m1 := if v1 in last then last else last[v1 := s.time];
      var e1 := if v1 in last then [VtvLine(s, last, p.0, p.1)] else [];
      var e2 := if v2 in last then [VtvLine(s, last, p.1, p.0)] else [];
      assert v2 in m1 <==> v2 in last;
      assert v2 in last ==> m1[v2] == last[v2];
      assert evs == e1 + e2;
      assert v1 in last ==> VtvLine(s, last, p.0, p.1) in evs;
      assert v2 in last ==> VtvLine(s, last, p.1, p.0) in evs;
    }
    assert forall q :: q in [p] ==> q == p;
  }

  /** The lines of the first pair followed by those of the rest of the pass. */
  lemma LogsStampedJoin(s: Snapshot, ps: seq<Pair>, before: map<VehId, real>, mid: map<VehId, real>,
                        first: seq<Event>, rest: seq<Event>)
    requires WellFormed(s) && ps != []
    requires Keeps(before, mid)
    requires LogsStamped(s, [ps[0]], before, first)
    requires LogsStamped(s, ps[1..], mid, rest)
    ensures LogsStamped(s, ps, before, first + rest)
  {
    forall p | p in ps && Linked(s, VehicleCommRadius, p)
      ensures s.vehicles[p.0] in before ==> VtvLine(s, before, p.0, p.1) in first + rest
      ensures s.vehicles[p.1] in before ==> VtvLine(s, before, p.1, p.0) in first + rest
    {
      if p == ps[0] {
        assert p in [ps[0]];
      } else {
        assert p in ps[1..] by { assert exists i :: 0 <= i < |ps| && ps[i] == p; }
        if s.vehicles[p.0] in before { assert VtvLine(s, before, p.0, p.1) == VtvLine(s, mid, p.0, p.1); }
        if s.vehicles[p.1] in before { assert VtvLine(s, before, p.1, p.0) == VtvLine(s, mid, p.1, p.0); }
      }
    }
  }

  /**
   The VTV loop, logged lines: for every link of `ps`, each endpoint that
   already had a stored time at the start of the loop writes its line to the
   other, with the time since that stored time and the link's distance.
   */
  lemma {:induction false} VtvPassLogsStamped(st: State, s: Snapshot, ps: seq<Pair>)
    requires WellFormed(s) && forall p :: p in ps ==> p.0 < |s.vehicles| && p.1 < |s.vehicles|
    ensures LogsStamped(s, ps, st.lastComms, VtvPass(st, s, ps).events)
    decreases |ps|
  {
    if ps != [] {
      assert ps[0] in ps;
      assert forall p :: p in ps[1..] ==> p in ps;
      var a := VtvVisit(st, s, ps[0]);
      var b := VtvPass(a.state, s, ps[1..]);
      VtvVisitLogsStamped(st, s, ps[0]);
      VtvPassLogsStamped(a.state, s, ps[1..]);
      assert VtvPass(st, s, ps).events == a.events + b.events;
      LogsStampedJoin(s, ps, st.lastComms, a.state.lastComms, a.events, b.events);
    }
  }

  /**
   The log lines of a pair followed by those of the rest of the pass: if the
   first pair's lines read stamps that survive the rest of the pass, so do
   all lines.
   */
  lemma VtvLinesJoin(s: Snapshot, ps: seq<Pair>, before: map<VehId, real>, after: map<VehId, real>,
                     first: seq<Event>, rest: seq<Event>)
    requires WellFormed(s) && ps != [] && forall p :: p in ps ==> p.0 < |s.vehicles| && p.1 < |s.vehicles|
    requires Keeps(before, after)
    requires forall e :: e in first ==>
               && Linked(s, VehicleCommRadius, ps[0]) && LineOfLink(s, ps[0], e) && e.time == s.time
               && e.source in before && e.delay == s.time - before[e.source]
    requires forall e :: e in rest ==>
               && e.Vtv? && e.time == s.time
               && e.source in after && e.delay == s.time - after[e.source]
               && exists p :: p in ps[1..] && Linked(s, VehicleCommRadius, p) && LineOfLink(s, p, e)
    ensures forall e :: e in first + rest ==>
              && e.Vtv? && e.time == s.time
              && e.source in after && e.delay == s.time - after[e.source]
              && e.source in s.vehicles && e.target in s.vehicles
    ensures forall e :: e in first + rest ==>
              exists p :: p in ps && Linked(s, VehicleCommRadius, p) && LineOfLink(s, p, e)
  {
    assert ps[0] in ps;
    assert forall p :: p in ps[1..] ==> p in ps;
  }

  /**
   The stored times of a pair followed by those of the rest of the pass: a
   vehicle first stamped anywhere in the pass is an endpoint of one of its links.
   */
  lemma VtvStampsJoin(s: Snapshot, ps: seq<Pair>, before: map<VehId, real>, mid: map<VehId, real>,
                      after: map<VehId, real>)
    requires WellFormed(s) && ps != [] && forall p :: p in ps ==> p.0 < |s.vehicles| && p.1 < |s.vehicles|
    requires Keeps(before, mid)
    requires forall w :: w in mid && w !in before ==>
               Linked(s, VehicleCommRadius, ps[0]) && (w == s.vehicles[ps[0].0] || w == s.vehicles[ps[0].1])
    requires forall w :: w in after && w !in mid ==> StampedByLink(s, ps[1..], w)
    ensures forall w :: w in after && w !in before ==> StampedByLink(s, ps, w)
  {
    assert ps[0] in ps;
    assert forall p :: p in ps[1..] ==> p in ps;
  }

  /**
   The packet delivery ratio in percent: received over sent, and 0 when
   nothing was sent (no division by zero). While received <= sent it lies in
   [0, 100] and is 0 exactly when nothing was received.
   */
  function Pdr(st: State): (pdr: real)
    ensures st.sent == 0 ==> pdr == 0.0
    ensures st.sent > 0 ==> pdr * st.sent as real == 100.0 * st.received as real
    ensures st.received <= st.sent ==> 0.0 <= pdr <= 100.0
    ensures st.received <= st.sent ==> (pdr == 0.0 <==> st.received == 0)
  {
    if st.sent > 0 then (st.received as real / st.sent as real) * 100.0 else 0.0
  }

  /**
   One tick: the RSU loop, then the VTV double loop over every ordered pair of
   vehicle positions, then the max-range/PDR summary line. The maximum range
   never goes down and covers every vehicle of the tick, stored times only
   advance, received <= sent is kept, and the summary is the only summary
   line of the tick.
   */
  function Step(st: State, s: Snapshot): (o: Outcome)
    requires WellFormed(s)
    ensures o.state.maxRangeSq >= st.maxRangeSq
    ensures forall v :: v in s.vehicles ==> o.state.maxRangeSq >= SqDist(s.pos[v], RsuPos)
    ensures Advances(st.lastComms, o.state.lastComms)
    ensures st.received <= st.sent ==> o.state.received <= o.state.sent
    ensures o.events != [] && o.events[|o.events| - 1] == Summary(o.state.maxRangeSq, Pdr(o.state))
    ensures forall i :: 0 <= i < |o.events| - 1 ==> !o.events[i].Summary?
  {
    var rtv := RtvPass(st, s.time, s.vehicles, s.pos);
    OrderedPairsExactlyOnce(|s.vehicles|);
    var vtv := VtvPass(rtv.state, s, OrderedPairs(|s.vehicles|));
    var summary := Summary(vtv.state.maxRangeSq, Pdr(vtv.state));
    assert forall e :: e in rtv.events + vtv.events ==> !e.Summary?;
    Outcome(vtv.state, rtv.events + vtv.events + [summary])
  }

  /**
   The counters over one tick: every in-range vehicle adds one packet sent and
   one received, and every in-range pair of distinct vehicles adds two packets
   sent (one per direction) and none received.
   */
  lemma StepCounts(st: State, s: Snapshot)
    requires WellFormed(s)
    ensures Step(st, s).state.sent
         == st.sent + |RsuLinked(s.vehicles, s.pos)|
            + 2 * CountLinked(s, VehicleCommRadius, UnorderedPairs(|s.vehicles|))
    ensures Step(st, s).state.received == st.received + |RsuLinked(s.vehicles, s.pos)|
  {
    RtvPassCounts(st, s.time, s.vehicles, s.pos);
    OrderedLinksDoubleUnordered(s, VehicleCommRadius, |s.vehicles|);
  }

  /**
   The VTV lines of one tick: for every in-range pair of distinct vehicles,
   each endpoint with a stored time after the RSU loop writes its line to
   the other, with the time since that stored time and their distance.
   */
  lemma StepLogsStamped(st: State, s: Snapshot)
    requires WellFormed(s)
    ensures LogsStamped(s, OrderedPairs(|s.vehicles|),
                        RtvPass(st, s.time, s.vehicles, s.pos).state.lastComms, Step(st, s).events)
  {
    var ps := OrderedPairs(|s.vehicles|);
    OrderedPairsExactlyOnce(|s.vehicles|);
    var rtv := RtvPass(st, s.time, s.vehicles, s.pos);
    var vtv := VtvPass(rtv.state, s, ps);
    VtvPassLogsStamped(rtv.state, s, ps);
    var all := Step(st, s).events;
    assert all == rtv.events + vtv.events + [Summary(vtv.state.maxRangeSq, Pdr(vtv.state))];
    assert forall e :: e in vtv.events ==> e in all;
  }

  /**
   The stored times over one tick: a vehicle that had one keeps it unless it
   is within RSU range and passes the freshness gate, in which case it moves
   to the current time; a vehicle that had none gets one only when it is
   within RSU range or an endpoint of a VTV link, so any other vehicle stays
   without one.
   */
  lemma StepStamps(st: State, s: Snapshot)
    requires WellFormed(s)
    ensures var last := Step(st, s).state.lastComms;
      forall w :: w in st.lastComms ==>
        && w in last
        && last[w] == (if w in s.vehicles && RsuLink(s.pos[w]) && Fresh(st.lastComms, w, s.time)
                       then s.time else st.lastComms[w])
    ensures var last := Step(st, s).state.lastComms;
      forall w :: w in last && w !in st.lastComms ==>
        && last[w] == s.time
        && ((w in s.vehicles && RsuLink(s.pos[w])) || StampedByLink(s, OrderedPairs(|s.vehicles|), w))
  {
    var ps := OrderedPairs(|s.vehicles|);
    OrderedPairsExactlyOnce(|s.vehicles|);
    RtvPassStamps(st, s.time, s.vehicles, s.pos);
    var rtv := RtvPass(st, s.time, s.vehicles, s.pos);
    var vtv := VtvPass(rtv.state, s, ps);
    assert Step(st, s).state.lastComms == vtv.state.lastComms;
    TickStampsJoin(s, ps, st.lastComms, rtv.state.lastComms, vtv.state.lastComms);
  }

  /** The stored times of the RSU loop followed by those of the VTV loop. */
  lemma TickStampsJoin(s: Snapshot, ps: seq<Pair>, before: map<VehId, real>, mid: map<VehId, real>,
                       after: map<VehId, real>)
    requires WellFormed(s) && forall p :: p in ps ==> p.0 < |s.vehicles| && p.1 < |s.vehicles|
    requires forall w :: w in s.vehicles && RsuLink(s.pos[w]) ==>
               && w in mid
               && mid[w] == (if Fresh(before, w, s.time) then s.time else before[w])
    requires forall w :: !(w in s.vehicles && RsuLink(s.pos[w])) ==>
               && (w in mid <==> w in before)
               && (w in before ==> mid[w] == before[w])
    requires Keeps(mid, after)
    requires forall w :: w in after && w !in mid ==> after[w] == s.time && StampedByLink(s, ps, w)
    ensures forall w :: w in before ==>
              && w in after
              && after[w] == (if w in s.vehicles && RsuLink(s.pos[w]) && Fresh(before, w, s.time)
                              then s.time else before[w])
    ensures forall w :: w in after && w !in before ==>
              && after[w] == s.time
              && ((w in s.vehicles && RsuLink(s.pos[w])) || StampedByLink(s, ps, w))
  {
  }

  /** Every snapshot of the trace is well formed. */
  predicate TraceOk(snaps: seq<Snapshot>)
  {
    forall k :: 0 <= k < |snaps| ==> WellFormed(snaps[k])
  }

  /**
   The simulation loop over a finite trace. Over the whole run the maximum
   range never goes down, stored times only advance, received <= sent holds
   throughout, and every summary line reports a PDR within [0, 100].
   */
  function Run(st: State, snaps: seq<Snapshot>): (o: Outcome)
    requires TraceOk(snaps)
    ensures o.state.maxRangeSq >= st.maxRangeSq
    ensures Advances(st.lastComms, o.state.lastComms)
    ensures st.received <= st.sent ==> o.state.received <= o.state.sent
    ensures st.received <= st.sent ==>
              forall e :: e in o.events && e.Summary? ==> 0.0 <= e.pdr <= 100.0
    decreases |snaps|
  {
    if snaps == [] then Outcome(st, [])
    else
      var a := Step(st, snaps[0]);
      assert forall k :: 0 <= k < |snaps[1..]| ==> snaps[1..][k] == snaps[k + 1];
      var b := Run(a.state, snaps[1..]);
      assert st.received <= st.sent ==> forall e :: e in a.events && e.Summary? ==> 0.0 <= e.pdr <= 100.0;
      Outcome(b.state, a.events + b.events)
  }

  /**
   A run from the state before the first tick: nothing has been counted yet,
   so received never exceeds sent and every summary line reports a PDR in
   [0, 100].
   */
  lemma RunFromInit(snaps: seq<Snapshot>)
    requires TraceOk(snaps)
    ensures var o := Run(Init, snaps);
      && o.state.received <= o.state.sent
      && forall e :: e in o.events && e.Summary? ==> 0.0 <= e.pdr <= 100.0
  {
  }
}
